=== FILE: README.md ===
# orderflow-rs in Dafny

This project models the deterministic core of orderflow-rs, a synthetic
market-data generator. The generator runs a regime-switching market (Calm,
Volatile, Crash, Rally, Recovery). It emits a stream of limit and market
orders and the cancels of live orders. The stream goes out as pipe-delimited
text lines.

The model is functional. Every entity is an immutable datatype and every
operation is a pure function. Every random draw the program takes is passed
in as an explicit argument: one `Engine.TickDraws` value per tick. The modules
are:

- `Wrappers`: `Option` and `Result`.
- `Text`: decimal and fixed-point rendering of numbers, the matching parsers,
  and split/join on a separator.
- `Regimes`: the five regimes and their parameter table. Also the Markov
  transition table, the regime state with its `transition_to` update, and
  the gated inverse-CDF transition draw (`src/regime.rs`).
- `Scenarios`: the five scenario presets (`src/scenario.rs`).
- `Orders`: sides, order types, orders, the ORDER and CANCEL wire lines, and
  a model-side decoder for those lines (`src/order.rs`).
- `Config`: the exact enum parsers, the configuration defaults, and the
  resolution of command-line options over file values (`src/config.rs`).
- `Engine`: the statistics counters and one tick of the generation loop of
  `run`, as a state transformer `Tick`, and runs of ticks (`src/engine.rs`).
  The tick's phases are:
  - the forced scenario event;
  - the shock regime switch;
  - order generation with id allocation;
  - the shuffle;
  - insertion into the live set;
  - TTL expiry;
  - capped regime cancellations;
  - the display window;
  - the regime transition and the time advance.
- `EngineFacts`: what a tick and a run guarantee.
  - Ids are fresh and distinct.
  - Only limit orders live, under their own ids, below the next id.
  - Cancels name live orders and are never repeated.
  - Exactly `min(drawn, live)` regime cancels are made per tick.
  - The forced event fires at most once.
  - The message counters stay consistent.

Modelling conventions:

- Prices, times and probabilities are `real`.
  - The wire shows the price in hundredths and the time in thousandths,
    printed with two and three fractional digits (`Orders.Scaled`). A
    rendered number is a sign and a magnitude: the sign is that of the
    real itself, and the magnitude is its absolute value scaled and
    rounded. So a negative price too small to show a non-zero digit still
    prints with its minus sign, as Rust's `{:.2}` does (`-0.00`).
  - `Round` is `f64::round`: nearest integer, halfway cases away from zero.
- `HashMap` iteration order is not specified by the program. The expiry
  pass is modelled as visiting the live ids in ascending order.
- `choose` over the live keys is modelled as indexing the ascending key
  sequence with a drawn number taken modulo the number of keys.
- `shuffle` is modelled as the Fisher–Yates pass of the `rand` crate. Its
  index draws are arbitrary numbers taken modulo `i + 1`, so every
  permutation is reachable.
- Ids and counters are unbounded `nat`.
- Order sizes saturate to 32 bits, as a Rust float-to-`u32` cast does.

Behaviours of the program worth knowing:

- Ids start at 0.
- Each transition row has a zero diagonal and sums to less than 1. The
  rest is the chance of staying in the current regime.
- A shock can switch the regime from Calm and also from Recovery.
- Regime cancellations are a Poisson count capped at the live count. They
  may pick orders inserted in the same tick.
- Expiry uses each order's own drawn time to live.
- Market orders carry the sentinel prices 999999.0 (buy) and 0.0 (sell).
- A scenario's forced event is a single transition into the forced regime
  at its scheduled time; after that the regime evolves as usual.

## Model

| member | source | states |
|---|---|---|
| Regimes.Index | src/regime.rs:16-32 | the index of a regime is below 5 and `ALL` at that index is the regime itself, so the table lookups are always in bounds |
| Regimes.IndexBijection | src/regime.rs:16-32 | `index` and `ALL` are mutually inverse, so `index` is injective |
| Regimes.NameInjective | src/regime.rs:35-45 | two regimes have the same display name exactly when they are the same regime |
| Regimes.ParamsOf | src/regime.rs:131-133 | the parameters looked up for any regime are sane: min dwell at most max dwell, buy probability in [0, 1], positive rates, spread and offset rate |
| Regimes.TableSane | src/regime.rs:62-93 | every row of the regime parameter table is sane in that sense |
| Regimes.TransitionTableFacts | src/regime.rs:98-104 | every transition probability is non-negative, every diagonal entry is zero, and every row sums to strictly between 0 and 1 |
| Regimes.RandomDuration | src/regime.rs:157-160 | a drawn dwell time lies in the regime's [min, max] range |
| Regimes.NewState | src/regime.rs:114-121 | a new state is in the given regime, with the same regime as previous, zero time in regime and a dwell time in range |
| Regimes.TransitionTo | src/regime.rs:123-128 | entering `next` records the old current regime as previous, resets the clock, and draws a dwell time in `next`'s range |
| Regimes.ScanFindsFirstCrossing | src/regime.rs:143-154 | the cumulative scan returns the least index whose running sum exceeds the roll; if it returns nothing, the roll is at or above every running sum |
| Regimes.TryTransition | src/regime.rs:135-155 | with transitions disabled or the dwell time not reached, the current regime stays; otherwise the result is the regime at the first crossing of the roll, or the current one if there is none |
| Regimes.TransitionChangesIff | src/regime.rs:143-154 | past the gate and with a roll in [0, 1), the regime changes exactly when the roll is below its row sum |
| Regimes.DwellGate | src/regime.rs:139-141 | after entering a regime, an attempt made once the dwell clock has advanced by less than the regime's minimum dwell time keeps the new regime, whatever the roll (the engine adds the tick length before each attempt, so a tick at least that long can leave at once) |
| Regimes.Scan | src/regime.rs:143-154 | defined here: the cumulative walk over a transition row; its properties are in Regimes.ScanFindsFirstCrossing |
| Scenarios.NamesDistinct | src/scenario.rs:16-26 | two scenarios have the same display name exactly when they are the same scenario |
| Scenarios.FromScenario | src/scenario.rs:36-69 | transitions are allowed except under Volatile; Volatile starts in Volatile and every other preset in Calm; only Crash, FlashCrash and Rally schedule a forced event, into Crash at 10 s, Crash at 8 s and Rally at 10 s |
| Scenarios.VolatileNeverTransitions | src/scenario.rs:50-55 | under the Volatile preset no transition attempt ever changes the regime |
| Orders.ParseSide | src/order.rs:9-16 | a parsed side name is the display name of the side parsed |
| Orders.ParseType | src/order.rs:24-31 | a parsed type name is the display name of the type parsed |
| Orders.NamesRoundTrip | src/order.rs:9-31 | every side and type name parses back to the value it names, so the renderings are injective |
| Orders.Round | src/engine.rs:319-320 | the rounded value is within one half of its argument, with halfway cases going away from zero |
| Orders.ToWire | src/order.rs:45-50 | defined here: the ORDER line; its properties are in Orders.OrderWireFields, Orders.DecodeOrder and Orders.WireDistinguishes |
| Orders.CancelToWire | src/order.rs:53-55 | defined here: the CANCEL line; its properties are in Orders.CancelWireFields, Orders.DecodeCancel and Orders.CancelLineExample |
| Orders.Scaled | src/order.rs:47 | a number rendered with a given scale is negative exactly when the number is, and its magnitude is the scaled absolute value rounded, within one half |
| Orders.Hundredths | src/order.rs:47 | defined here: the price at scale 100; its properties are in Orders.Scaled, Orders.GridValuesExact and Orders.NegativeBelowHalfCent |
| Orders.Thousandths | src/order.rs:47-54 | defined here: the time at scale 1000; its properties are in Orders.Scaled and Orders.GridValuesExact |
| Orders.Decode | src/order.rs:45-55 | defined here: the reading of a wire line back into its fields; its properties are in Orders.DecodeOrder, Orders.DecodeCancel and EngineFacts.EventWireDecodes |
| Orders.OrderWireFields | src/order.rs:45-50 | splitting an ORDER line on the field separator gives exactly its seven fields in wire order, since no rendered value contains the separator |
| Orders.CancelWireFields | src/order.rs:53-55 | splitting a CANCEL line on the field separator gives exactly its three fields |
| Orders.FixedHasNoBar | src/order.rs:47 | a fixed-point rendering never contains the field separator |
| Orders.DecodeOrder | src/order.rs:45-50 | decoding an ORDER line recovers id, side, type and size unchanged, and price and time as the signed hundredths and thousandths shown |
| Orders.DecodeCancel | src/order.rs:53-55 | decoding a CANCEL line recovers the id and the signed time in thousandths |
| Orders.GridValuesExact | src/order.rs:47 | a price already on the cent grid and a time already on the millisecond grid, of either sign, are rendered exactly: the shown value is the grid value |
| Orders.NegativeBelowHalfCent | src/order.rs:47 | a price of -0.004 renders as `-0.00`: the sign survives rounding the magnitude to zero |
| Orders.WireDistinguishes | src/order.rs:45-55 | an ORDER line is never a CANCEL line, and equal ORDER lines carry equal id, side, type and size |
| Orders.WireExample | src/order.rs:45-50 | a buy limit order 42 at 99.85 for 23 created at 1.3 s renders the fields ORDER, id=42, side=BUY, type=LIMIT, price=99.85, size=23, time=1.300 |
| Orders.CancelExample | src/order.rs:53-55 | the cancel of order 42 at 2.5 s renders the fields CANCEL, id=42, time=2.500 |
| Orders.CancelLineExample | src/order.rs:53-55 | the cancel of order 42 at 2.5 s is the whole line `CANCEL`, `id=42`, `time=2.500` joined by the field separator |
| Orders.ExampleRenderings | src/order.rs:47 | the integer and fixed-point renderings used by the examples produce 42, 23, 99.85, 1.300 and 2.500 |
| Text.NatToString | src/order.rs:47 | an integer renders as a non-empty string of decimal digits with no leading zero: it starts with `0` exactly when it is zero, and zero is `0` |
| Text.FixedToString | src/order.rs:47 | defined here: Rust's `{:.k}` rendering of a signed fixed-point number; its layout is Text.FixedShape and its inverse is Text.ParseFixedToString |
| Text.FixedShape | src/order.rs:47 | a fixed-point rendering is at least k + 2 characters long, starts with a minus sign exactly when the number is negative, and ends in a point followed by exactly k digits |
| Text.ParseNatToString | src/order.rs:47 | parsing the decimal rendering of a number gives the number back |
| Text.ParseFixedToString | src/order.rs:47 | parsing a fixed-point rendering with k fractional digits gives back the scaled integer, sign included |
| Text.HighLowValue | src/order.rs:47 | the integer and fractional digit groups of a fixed-point rendering recombine to the value |
| Text.FixedAvoids | src/order.rs:47 | a fixed-point rendering contains only digits, a point and a minus sign |
| Text.Split | src/order.rs:45-55 | defined here: splitting a line on the separator always gives at least one field; its round trip with Text.Join is Text.SplitJoin |
| Text.SplitSepFree | src/order.rs:45-55 | no field obtained by splitting a line on the separator contains the separator |
| Text.Join | src/order.rs:45-55 | defined here: the fields joined by the separator; its properties are in Text.SplitJoin |
| Text.SplitJoin | src/order.rs:45-55 | joining separator-free fields and splitting on the separator gives the fields back |
| Config.ParseOutputMode | src/config.rs:57-69 | a successful parse gives the mode whose display name is the input; a failure carries the documented message naming the input and the valid modes |
| Config.ParseWireFormat | src/config.rs:71-77 | a successful parse gives the format whose display name is the input; a failure carries the documented message |
| Config.ParseScenario | src/config.rs:420-433 | a successful parse gives the scenario whose display name is the input; a failure carries the documented message |
| Config.OutputModeExact | src/config.rs:46-69 | the output mode parser accepts a string exactly when it is the display name of that mode |
| Config.ScenarioExact | src/config.rs:420-433 | the scenario parser accepts a string exactly when it is the display name of that scenario |
| Config.ParsersExact | src/config.rs:31-77 | each of the three parsers inverts its display names in both directions |
| Config.ParsersCaseSensitive | src/config.rs:57-77 | every string containing an upper-case ASCII letter is rejected by all three parsers, because every display name is lower case |
| Config.Override | src/config.rs:339-341 | a present option replaces the file value and an absent one keeps it |
| Config.ApplyOverrides | src/config.rs:335-380 | defined here: the command-line overrides applied to the file configuration; its properties are in Config.ResolveMerges and Config.InvalidScenarioFirst |
| Config.Resolve | src/config.rs:325-416 | defined here: loading, overriding and assembling the configuration; its properties are in Config.ResolveMerges, Config.InvalidScenarioFirst and Config.ResolveDefaults |
| Config.ResolveMerges | src/config.rs:325-416 | resolution succeeds exactly when the file configuration is available and every given enum option is valid; then the configuration path is the one given, every field (the log-normal size parameters included) is its option when given and its file value otherwise, and the seed falls back to the random one |
| Config.InvalidScenarioFirst | src/config.rs:336-338 | an invalid scenario option fails the resolution with the scenario parser's message |
| Config.ResolveDefaults | src/config.rs:181-228 | with no options and no file: Normal scenario, price 100, tick 0.1 s, tick size 0.01, scale 1, console output, text wire, group 239.255.0.1 port 5555, shock probability 0.0003, display every 1 s, random seed |
| Engine.Reset | src/engine.rs:39-45 | after a reset every counter is zero |
| Engine.Count | src/engine.rs:333-412 | counting a tick's messages adds the limits and markets to the order total, the expiry and regime cancels to the cancel total, and all of them to the messages sent |
| Engine.StatsConsistency | src/engine.rs:47-53 | resetting and counting keep the message total equal to the order total plus the cancel total |
| Engine.Init | src/engine.rs:180-222 | a run starts at id 0 and time 0, with no live orders and the forced event not fired; the scenario's starting regime is freshly entered (previous regime the same, dwell clock at zero, dwell time in its range); every counter and the display clock are zero |
| Engine.Start | src/engine.rs:212-213 | the engine starts exactly when the time-to-live range is non-empty, whatever the size parameters, and then from the initial state |
| EngineFacts.InitValid | src/engine.rs:216-222 | the initial state meets the live-set invariant and its counters are consistent |
| Engine.ForcedPhase | src/engine.rs:226-236 | when the forced event is due (not fired, scheduled at a positive time, time reached) the forced regime is entered and the event is marked fired; under FlashCrash the dwell time is in [3, 7); otherwise nothing changes |
| Engine.ShockPhase | src/engine.rs:245-271 | the regime changes exactly when the shock fires while Calm or Recovery, into Rally on an up shock and Crash on a down one |
| Engine.OrderSize | src/engine.rs:320 | the size is at least 1 and at most 2^32-1: the rounded sample when it is in that range, else the nearer bound |
| Engine.MakeLimit | src/engine.rs:308-331 | a limit order has the given id, the tick's time and its drawn time to live, is a buy exactly when the side roll is below the buy probability, and has size at least 1 |
| Engine.MakeMarket | src/engine.rs:340-364 | a market order has the given id, no time to live, price 999999 as a buy and 0 as a sell, and size at least 1 |
| Engine.Swap | src/engine.rs:368 | a swap permutes the orders and keeps their ids distinct |
| Engine.ShuffleDown | src/engine.rs:368 | each step of the shuffle permutes the orders and keeps their ids distinct |
| Engine.Shuffle | src/engine.rs:368 | the shuffle is a permutation of the orders and keeps their ids distinct |
| Engine.InsertLimits | src/engine.rs:371-377 | after sending, the live ids are the old ones plus the ids of the limit orders sent |
| Engine.ExpiredIds | src/engine.rs:380-384 | the expired ids are live ids, namely those whose positive time to live has run out; how expiry moves with time is Engine.ExpiryMonotone, and what it removes in a tick is EngineFacts.SettleCancels |
| Engine.ExpiryMonotone | src/engine.rs:380-384 | an order expired at one time is expired at every later time, and an order with no time to live never expires |
| Engine.Ascending | src/engine.rs:380-384 | the visiting order of a set of ids lists each exactly once, strictly ascending |
| Engine.PickLive | src/engine.rs:407-408 | a regime cancel always picks a live id |
| Engine.RegimeCancels | src/engine.rs:401-414 | the pass cancels exactly min(count, live) distinct live ids, and the live set afterwards is the rest of the old one, unchanged |
| Engine.TransitionPhase | src/engine.rs:432-436 | after the dwell clock advances, the new regime is the one the transition draw picks; without a change only the clock moves, with one the old regime becomes previous and the clock restarts |
| Engine.Advance | src/engine.rs:417-429 | once the time since the last display reaches the interval the counters reset and the window restarts; otherwise the window just grows |
| Engine.LimitPrice | src/engine.rs:314-319 | defined here: the mid moved by the offset and rounded to the tick grid; its properties are in EngineFacts.LimitPriceSide and EngineFacts.RoundedWithinHalfTick |
| Engine.Generate | src/engine.rs:296-366 | defined here: a tick's limit and market orders before the shuffle; its properties are in EngineFacts.GeneratedOrders |
| Engine.Settle | src/engine.rs:371-414 | defined here: insertion, expiry and regime cancellation of the live set; its properties are in EngineFacts.SettleCancels and EngineFacts.SettleKeepsFresh |
| Engine.EventPhases | src/engine.rs:226-271 | defined here: the forced-event phase followed by the shock phase; their properties are in Engine.ForcedPhase, Engine.ShockPhase and EngineFacts.TickForcedEvent |
| Engine.Events | src/engine.rs:369-412 | defined here: a tick's messages in send order; their number is EngineFacts.EventsCount and how they decode is EngineFacts.EventWireDecodes |
| Engine.EventWire | src/engine.rs:369-412 | defined here: the wire line of one message; its properties are in EngineFacts.EventWireDecodes |
| Engine.Tick | src/engine.rs:224-438 | defined here: one pass of the generation loop; its properties are in EngineFacts.TickIds, EngineFacts.TickCancels, EngineFacts.TickMessages, EngineFacts.TickPreservesValid and EngineFacts.TickOk |
| Engine.Run | src/engine.rs:224-440 | a run takes one tick per entry of its draws |
| EngineFacts.GeneratedOrders | src/engine.rs:296-366 | a tick generates the limit orders first and then the market orders, with consecutive ids, its time stamp, sides by the rolls, sizes at least 1 and sentinel prices for market orders |
| EngineFacts.LimitPriceSide | src/engine.rs:314-319 | when the half-spread exceeds half a tick, a limit buy rests strictly below the mid and a limit sell strictly above it |
| EngineFacts.RoundedWithinHalfTick | src/engine.rs:319 | rounding a price to the tick grid moves it by at most half a tick |
| EngineFacts.DefaultTickBelowSpread | src/regime.rs:62-93 | with the default tick size 0.01, every regime's half-spread exceeds half a tick |
| EngineFacts.InsertLimitsValues | src/engine.rs:371-377 | each sent limit order is stored under its own id, and every other live order is left as it was |
| EngineFacts.InsertKeepsValid | src/engine.rs:371-377 | inserting fresh limit orders keeps every live order a limit order under its own id below the bound |
| EngineFacts.SettleCancels | src/engine.rs:380-414 | expiry and regime cancels name distinct live ids, the expired ones exactly those timed out; exactly the cancelled ids leave, nothing left is timed out, and min(picks, remaining) regime cancels are made |
| EngineFacts.SettleKeepsFresh | src/engine.rs:380-391 | a limit order sent in the same tick with a positive time to live is not expired by it |
| EngineFacts.ShuffledIds | src/engine.rs:368 | shuffling consecutively numbered orders keeps them distinct, in the same id range and time stamp |
| EngineFacts.TickIds | src/engine.rs:322-364 | a tick sends orders with distinct ids from the old next id up to the new one, all stamped with the tick's time |
| EngineFacts.TickInsertion | src/engine.rs:371-377 | after insertion every live order is a limit order under its own id, below the new next id |
| EngineFacts.TickCancels | src/engine.rs:380-414 | a tick's cancels are distinct ids of orders live at that point; exactly they leave the live set and nothing left has timed out |
| EngineFacts.FreshOrdersSurviveExpiry | src/engine.rs:380-391 | a limit order sent in a tick with a positive time to live is not expired by that tick |
| EngineFacts.TickCancelCount | src/engine.rs:394-414 | the regime pass cancels exactly min(drawn count, live orders after expiry) ids |
| EngineFacts.TickPreservesValid | src/engine.rs:371-414 | the live-set invariant (limit orders under their own ids, below the next id) holds after every tick |
| EngineFacts.TickStatsConsistent | src/engine.rs:371-429 | the message total stays equal to orders plus cancels across a tick, with or without a display reset |
| EngineFacts.TickMessages | src/engine.rs:333-429 | while the display window stays open, a tick adds the orders it sent to the order total, its cancels to the cancel total and its number of messages to the message count; when the window closes every counter and the display clock are zero |
| EngineFacts.WindowCounts | src/engine.rs:417-429 | a tick's counts entered into the open window add its orders to the order total, its cancels to the cancel total and all of them to the message count, unless the window closes, when every counter and the display clock restart from zero |
| EngineFacts.EventsCount | src/engine.rs:369-412 | a tick sends one message per order sent and one per id cancelled |
| EngineFacts.EventWireDecodes | src/engine.rs:369-412 | every message of a tick goes out as a line that decodes to its order's fields, or to the cancelled id and the tick's time |
| EngineFacts.WindowConsistent | src/engine.rs:417-429 | closing the display window keeps the counters consistent |
| EngineFacts.TickForcedEvent | src/engine.rs:226-231 | the forced event fires in a tick exactly when it is due at the tick's start, and the fired flag is set from then on |
| EngineFacts.NoForcedEventUnscheduled | src/scenario.rs:38-55 | under the Normal and Volatile presets no forced event ever fires |
| EngineFacts.TickOk | src/engine.rs:224-438 | one tick keeps the forced-event bookkeeping and the counters consistent, and from a valid state gives fresh distinct ids, cancels of live orders only, and a valid state |
| EngineFacts.RunIsChain | src/engine.rs:224-440 | every step of a run satisfies the one-tick guarantees from the state the previous step left |
| EngineFacts.ChainForcedOnce | src/engine.rs:226-231 | along a chain of steps the forced event fires at most once, and never once it has fired |
| EngineFacts.ForcedEventOnce | src/engine.rs:226-231 | the forced event fires at most once in a run |
| EngineFacts.ChainHistory | src/engine.rs:322-414 | from a valid state, a chain sends fresh distinct ids, never cancels an id twice, and only cancels ids that were live at the start or sent as limit orders |
| EngineFacts.RunIdentities | src/engine.rs:216-414 | from a fresh engine a run never reuses an id, never cancels an id twice, and only cancels limit orders it sent |

## Left out

- Sockets, `send_to`, `main` and process exit: sending is modelled as the
  ordered list of events of a tick (`Engine.Events`, `Engine.EventWire`),
  not as I/O.
- The banner, event lines, summary box and log file of the engine, and
  `thread::sleep` pacing: these are console output and wall-clock time.
- The geometric Brownian motion update of the mid, `dt_years`, the
  Box–Muller draw and the shock's price jump are floating-point numerics.
  The mid is an input of each tick (`TickDraws.mid`). The shock's effect
  on the regime is modelled; its effect on the price is not.
- Poisson, exponential, log-normal and uniform sampling and `thread_rng`
  are library randomness. Their results are inputs: the lengths of the
  draw sequences are the Poisson counts. Each draw in a unit range is
  taken from its closed or half-open range as the library promises.
- IEEE-754 rounding: prices and times are exact reals.
  - Negative zero: a price computed as `-0.0` prints as `-0.00` in the
    program, but the model has one zero, which prints as `0.00`.
  - `Orders.Hundredths` and `Orders.Thousandths` round halfway cases away
    from zero. The formatter's tie rule on binary doubles is not modelled.
- u64 overflow of the id counter and of the statistics counters: both are
  unbounded.
- Reading and parsing the TOML file and the command line: the loaded file
  is a `Result` argument of `Config.Resolve`, and the options are a `Cli`
  record.
- The `rand::random` seed is an argument of `Config.Resolve`.
- Config.Resolve: does not parse the multicast group as an IPv4 address and
  so never fails with the invalid-group error, because that parser belongs
  to the standard library. The group is kept as a string.
- Config.ResolveMerges: its "succeeds exactly when" leaves out the IPv4
  check for the same reason.
- The binary wire format: it can be selected and parsed, but no binary
  encoder exists in the modelled code, and sends always use text.
- Engine.Tick: requires a non-zero tick size, because the limit price
  divides by it. With a zero tick size the program would produce a
  non-finite price.
- Engine.Start: does not model the log-normal constructor's rejection of
  a non-finite spread, because reals are always finite. The `Uniform`
  panic on an empty time-to-live range is modelled as a refusal to start,
  without the panic message.
- Engine.Run: takes one tick per entry of its draws whatever the tick
  interval. With a negative tick interval the program's pacing sleep
  (src/engine.rs:439) panics after the first tick, because a negative
  duration is rejected; the model does not stop the run there, so
  `EngineFacts.RunIsChain`, `EngineFacts.ForcedEventOnce` and
  `EngineFacts.RunIdentities` describe ticks such a run never reaches.
- The control settings `control_enabled` and `control_bind` are resolved,
  but nothing in the modelled source reads them. The socket sender in
  `src/multicast.rs` and the process exit in `src/main.rs` are not
  modelled.

=== FILE: config.dfy ===
/** Configuration: the output-mode, wire-format and scenario enums with their
    exact string parsers, the configuration-file sections with their
    defaults, and the resolution that lays command-line options over file
    values. Reading and parsing the TOML file happen outside the model; their
    outcome is an input. */
module Config {
  import opened Wrappers
  import S = Scenarios

  datatype OutputMode = Console | File | Both | Quiet

  datatype WireFormat = TextWire | BinaryWire

  const DEFAULT_OUTPUT_MODE: OutputMode := Console
  const DEFAULT_WIRE_FORMAT: WireFormat := TextWire

  function OutputModeName(m: OutputMode): string {
    match m
    case Console => "console"
    case File => "file"
    case Both => "both"
    case Quiet => "quiet"
  }

  function WireFormatName(w: WireFormat): string {
    match w
    case TextWire => "text"
    case BinaryWire => "binary"
  }

  function ParseOutputMode(s: string): (r: Result<OutputMode, string>)
    ensures r.Ok? ==> OutputModeName(r.value) == s
    ensures r.Err? ==> r.error == "unknown output mode '" + s + "'. available: console, file, both, quiet"
  {
    if s == "console" then Ok(Console)
    else if s == "file" then Ok(File)
    else if s == "both" then Ok(Both)
    else if s == "quiet" then Ok(Quiet)
    else Err("unknown output mode '" + s + "'. available: console, file, both, quiet")
  }

  function ParseWireFormat(s: string): (r: Result<WireFormat, string>)
    ensures r.Ok? ==> WireFormatName(r.value) == s
    ensures r.Err? ==> r.error == "unknown wire format '" + s + "'. available: text, binary"
  {
    if s == "text" then Ok(TextWire)
    else if s == "binary" then Ok(BinaryWire)
    else Err("unknown wire format '" + s + "'. available: text, binary")
  }

  function ParseScenario(s: string): (r: Result<S.Scenario, string>)
    ensures r.Ok? ==> S.Name(r.value) == s
    ensures r.Err? ==> r.error == "unknown scenario '" + s + "'. available: normal, crash, volatile, flash-crash, rally"
  {
    if s == "normal" then Ok(S.Normal)
    else if s == "crash" then Ok(S.Crash)
    else if s == "volatile" then Ok(S.Volatile)
    else if s == "flash-crash" then Ok(S.FlashCrash)
    else if s == "rally" then Ok(S.Rally)
    else Err("unknown scenario '" + s + "'. available: normal, crash, volatile, flash-crash, rally")
  }

  /** Each parser accepts exactly the display names: a string parses to a
      value if and only if it is that value's display name. Any other string,
      including a differently-cased one, is an error. */
  lemma ParsersExact(s: string, m: OutputMode, w: WireFormat, sc: S.Scenario)
    ensures ParseOutputMode(s) == Ok(m) <==> s == OutputModeName(m)
    ensures ParseWireFormat(s) == Ok(w) <==> s == WireFormatName(w)
    ensures ParseScenario(s) == Ok(sc) <==> s == S.Name(sc)
  {
    OutputModeExact(s, m);
    ScenarioExact(s, sc);
  }

  lemma OutputModeExact(s: string, m: OutputMode)
    ensures ParseOutputMode(s) == Ok(m) <==> s == OutputModeName(m)
  {
  }

  lemma ScenarioExact(s: string, sc: S.Scenario)
    ensures ParseScenario(s) == Ok(sc) <==> s == S.Name(sc)
  {
  }

  /** `s` contains an upper-case ASCII letter. */
  predicate HasUpper(s: string) {
    exists i :: 0 <= i < |s| && 'A' <= s[i] <= 'Z'
  }

  /** The parsers are case-sensitive: every display name is lower-case, so
      any string with an upper-case letter in it (`Console`, `TEXT`,
      `Flash-Crash`, ...) is rejected by all three. */
  lemma ParsersCaseSensitive(s: string)
    requires HasUpper(s)
    ensures ParseOutputMode(s).Err?
    ensures ParseWireFormat(s).Err?
    ensures ParseScenario(s).Err?
  {
    var i :| 0 <= i < |s| && 'A' <= s[i] <= 'Z';
    var r1, r2, r3 := ParseOutputMode(s), ParseWireFormat(s), ParseScenario(s);
    if r1.Ok? {
      ModeNameLower(r1.value);
      assert false;
    }
    if r2.Ok? {
      FormatNameLower(r2.value);
      assert false;
    }
    if r3.Ok? {
      ScenarioNameLower(r3.value);
      assert false;
    }
  }

  predicate LowerOnly(s: string) {
    forall i :: 0 <= i < |s| ==> !('A' <= s[i] <= 'Z')
  }

  lemma ModeNameLower(m: OutputMode)
    ensures LowerOnly(OutputModeName(m))
  {
  }

  lemma FormatNameLower(w: WireFormat)
    ensures LowerOnly(WireFormatName(w))
  {
  }

  lemma ScenarioNameLower(sc: S.Scenario)
    ensures LowerOnly(S.Name(sc))
  {
  }

  type Port = p: int | 0 <= p < 0x1_0000

  datatype SimulationConfig = SimulationConfig(
    scenario: S.Scenario,
    initialPrice: real,
    tickInterval: real,
    tickSize: real,
    throughputScale: real,
    seed: Option<nat>)

  datatype OutputConfig = OutputConfig(mode: OutputMode, logFile: string, displayInterval: real)

  datatype NetworkConfig = NetworkConfig(multicastGroup: string, multicastPort: Port, wireFormat: WireFormat)

  datatype OrderConfig = OrderConfig(sizeMeanLog: real, sizeStdLog: real, ttlMin: real, ttlMax: real)

  datatype ShockConfig = ShockConfig(probability: real, minPct: real, maxPct: real)

  datatype ControlConfig = ControlConfig(enabled: bool, bind: string)

  datatype FileConfig = FileConfig(
    simulation: SimulationConfig,
    network: NetworkConfig,
    orders: OrderConfig,
    shocks: ShockConfig,
    output: OutputConfig,
    control: ControlConfig)

  /** The values a missing file, or a missing section or key, falls back to. */
  const DEFAULT_FILE_CONFIG: FileConfig := FileConfig(
    SimulationConfig(S.Normal, 100.0, 0.1, 0.01, 1.0, None),
    NetworkConfig("239.255.0.1", 5555, DEFAULT_WIRE_FORMAT),
    OrderConfig(3.0, 1.0, 1.0, 30.0),
    ShockConfig(0.0003, 0.02, 0.06),
    OutputConfig(DEFAULT_OUTPUT_MODE, "orderflow.log", 1.0),
    ControlConfig(true, "127.0.0.1:6001"))

  /** Command-line options; each is absent unless given. */
  datatype Cli = Cli(
    scenario: Option<string>,
    config: Option<string>,
    multicastGroup: Option<string>,
    multicastPort: Option<Port>,
    initialPrice: Option<real>,
    tickInterval: Option<real>,
    tickSize: Option<real>,
    shockProb: Option<real>,
    output: Option<string>,
    logFile: Option<string>,
    throughputScale: Option<real>,
    displayInterval: Option<real>,
    seed: Option<nat>,
    wireFormat: Option<string>,
    controlEnabled: Option<bool>,
    controlBind: Option<string>)

  const NO_OPTIONS: Cli := Cli(None, None, None, None, None, None, None, None, None,
                               None, None, None, None, None, None, None)

  /** The resolved configuration the engine runs with. */
  datatype AppConfig = AppConfig(
    configPath: Option<string>,
    scenario: S.Scenario,
    initialPrice: real,
    tickInterval: real,
    tickSize: real,
    multicastGroup: string,
    multicastPort: Port,
    wireFormat: WireFormat,
    sizeMeanLog: real,
    sizeStdLog: real,
    ttlMin: real,
    ttlMax: real,
    shockProb: real,
    shockMinPct: real,
    shockMaxPct: real,
    outputMode: OutputMode,
    logFile: string,
    displayInterval: real,
    throughputScale: real,
    seed: nat,
    controlEnabled: bool,
    controlBind: string)

  /** A present option replaces the file value; an absent one keeps it. */
  function Override<T>(option: Option<T>, fileValue: T): (r: T)
    ensures option.Some? ==> r == option.value
    ensures option.None? ==> r == fileValue
  {
    option.GetOr(fileValue)
  }

  /** A present enum option replaces the file value when it parses and fails
      the resolution when it does not; an absent one keeps the file value. */
  function OverrideParsed<T>(option: Option<string>, parse: string -> Result<T, string>, fileValue: T): (r: Result<T, string>)
    ensures option.None? ==> r == Ok(fileValue)
    ensures option.Some? ==> r == parse(option.value)
  {
    match option
    case None => Ok(fileValue)
    case Some(s) => parse(s)
  }

  /** The command-line layer over file values, in the order the options are
      applied: scenario, then wire format, then output mode are the ones
      that can fail, and the first failure is the result. */
  function ApplyOverrides(cli: Cli, f: FileConfig): Result<FileConfig, string> {
    var scenario :- OverrideParsed(cli.scenario, ParseScenario, f.simulation.scenario);
    var wireFormat :- OverrideParsed(cli.wireFormat, ParseWireFormat, f.network.wireFormat);
    var mode :- OverrideParsed(cli.output, ParseOutputMode, f.output.mode);
    var seed := if cli.seed.Some? then Some(cli.seed.value) else f.simulation.seed;
    Ok(FileConfig(
      SimulationConfig(
        scenario,
        Override(cli.initialPrice, f.simulation.initialPrice),
        Override(cli.tickInterval, f.simulation.tickInterval),
        Override(cli.tickSize, f.simulation.tickSize),
        Override(cli.throughputScale, f.simulation.throughputScale),
        seed),
      NetworkConfig(
        Override(cli.multicastGroup, f.network.multicastGroup),
        Override(cli.multicastPort, f.network.multicastPort),
        wireFormat),
      f.orders,
      f.shocks.(probability := Override(cli.shockProb, f.shocks.probability)),
      OutputConfig(
        mode,
        Override(cli.logFile, f.output.logFile),
        Override(cli.displayInterval, f.output.displayInterval)),
      ControlConfig(
        Override(cli.controlEnabled, f.control.enabled),
        Override(cli.controlBind, f.control.bind))))
  }

  /** Every given enum option names a valid value. */
  predicate EnumOptionsValid(cli: Cli) {
    && (cli.scenario.Some? ==> ParseScenario(cli.scenario.value).Ok?)
    && (cli.wireFormat.Some? ==> ParseWireFormat(cli.wireFormat.value).Ok?)
    && (cli.output.Some? ==> ParseOutputMode(cli.output.value).Ok?)
  }

  /** The file configuration resolution starts from: the loaded file when a
      path was given (its read or parse error otherwise), else the defaults. */
  function BaseConfig(cli: Cli, loaded: Result<FileConfig, string>): Result<FileConfig, string> {
    if cli.config.Some? then loaded else Ok(DEFAULT_FILE_CONFIG)
  }

  /** Defaults, then file values, then command-line options. `randomSeed`
      stands for the fresh random seed drawn when no seed is configured. */
  function Resolve(cli: Cli, loaded: Result<FileConfig, string>, randomSeed: nat): Result<AppConfig, string> {
    var base :- BaseConfig(cli, loaded);
    var f :- ApplyOverrides(cli, base);
    Ok(AppConfig(
      cli.config,
      f.simulation.scenario,
      f.simulation.initialPrice,
      f.simulation.tickInterval,
      f.simulation.tickSize,
      f.network.multicastGroup,
      f.network.multicastPort,
      f.network.wireFormat,
      f.orders.sizeMeanLog,
      f.orders.sizeStdLog,
      f.orders.ttlMin,
      f.orders.ttlMax,
      f.shocks.probability,
      f.shocks.minPct,
      f.shocks.maxPct,
      f.output.mode,
      f.output.logFile,
      f.output.displayInterval,
      f.simulation.throughputScale,
      f.simulation.seed.GetOr(randomSeed),
      f.control.enabled,
      f.control.bind))
  }

  /** Resolution succeeds exactly when the base configuration is available and
      every given enum option is valid. On success each plain option that is
      present wins over the file value and each absent one leaves it; each
      enum field is the parse of its option when given. */
  lemma ResolveMerges(cli: Cli, loaded: Result<FileConfig, string>, randomSeed: nat)
    ensures Resolve(cli, loaded, randomSeed).Ok? <==>
      BaseConfig(cli, loaded).Ok? && EnumOptionsValid(cli)
    ensures Resolve(cli, loaded, randomSeed).Ok? ==>
      var a := Resolve(cli, loaded, randomSeed).value;
      var f := BaseConfig(cli, loaded).value;
      && (cli.initialPrice.Some? ==> a.initialPrice == cli.initialPrice.value)
      && (cli.initialPrice.None? ==> a.initialPrice == f.simulation.initialPrice)
      && (cli.tickInterval.Some? ==> a.tickInterval == cli.tickInterval.value)
      && (cli.tickInterval.None? ==> a.tickInterval == f.simulation.tickInterval)
      && (cli.tickSize.Some? ==> a.tickSize == cli.tickSize.value)
      && (cli.tickSize.None? ==> a.tickSize == f.simulation.tickSize)
      && (cli.multicastGroup.Some? ==> a.multicastGroup == cli.multicastGroup.value)
      && (cli.multicastGroup.None? ==> a.multicastGroup == f.network.multicastGroup)
      && (cli.multicastPort.Some? ==> a.multicastPort == cli.multicastPort.value)
      && (cli.multicastPort.None? ==> a.multicastPort == f.network.multicastPort)
      && (cli.shockProb.Some? ==> a.shockProb == cli.shockProb.value)
      && (cli.shockProb.None? ==> a.shockProb == f.shocks.probability)
      && (cli.logFile.Some? ==> a.logFile == cli.logFile.value)
      && (cli.logFile.None? ==> a.logFile == f.output.logFile)
      && (cli.throughputScale.Some? ==> a.throughputScale == cli.throughputScale.value)
      && (cli.throughputScale.None? ==> a.throughputScale == f.simulation.throughputScale)
      && (cli.displayInterval.Some? ==> a.displayInterval == cli.displayInterval.value)
      && (cli.displayInterval.None? ==> a.displayInterval == f.output.displayInterval)
      && (cli.controlEnabled.Some? ==> a.controlEnabled == cli.controlEnabled.value)
      && (cli.controlEnabled.None? ==> a.controlEnabled == f.control.enabled)
      && (cli.controlBind.Some? ==> a.controlBind == cli.controlBind.value)
      && (cli.controlBind.None? ==> a.controlBind == f.control.bind)
      && (cli.seed.Some? ==> a.seed == cli.seed.value)
      && (cli.seed.None? && f.simulation.seed.Some? ==> a.seed == f.simulation.seed.value)
      && (cli.seed.None? && f.simulation.seed.None? ==> a.seed == randomSeed)
      && (cli.scenario.Some? ==> ParseScenario(cli.scenario.value) == Ok(a.scenario))
      && (cli.scenario.None? ==> a.scenario == f.simulation.scenario)
      && (cli.wireFormat.Some? ==> ParseWireFormat(cli.wireFormat.value) == Ok(a.wireFormat))
      && (cli.wireFormat.None? ==> a.wireFormat == f.network.wireFormat)
      && (cli.output.Some? ==> ParseOutputMode(cli.output.value) == Ok(a.outputMode))
      && (cli.output.None? ==> a.outputMode == f.output.mode)
      && a.configPath == cli.config
      && a.sizeMeanLog == f.orders.sizeMeanLog && a.sizeStdLog == f.orders.sizeStdLog
      && a.ttlMin == f.orders.ttlMin && a.ttlMax == f.orders.ttlMax
      && a.shockMinPct == f.shocks.minPct && a.shockMaxPct == f.shocks.maxPct
  {
  }

  /** An invalid scenario option is reported before any other option is
      looked at, with the scenario parser's message. */
  lemma InvalidScenarioFirst(cli: Cli, loaded: Result<FileConfig, string>, randomSeed: nat)
    requires BaseConfig(cli, loaded).Ok?
    requires cli.scenario.Some? && ParseScenario(cli.scenario.value).Err?
    ensures Resolve(cli, loaded, randomSeed) == Err(ParseScenario(cli.scenario.value).error)
  {
  }

  /** With no options and no file, the resolved configuration is the
      documented defaults: price 100, tick 0.1 s, tick size 0.01, scale 1,
      console output, text wire format, and a random seed. */
  lemma ResolveDefaults(loaded: Result<FileConfig, string>, randomSeed: nat)
    ensures Resolve(NO_OPTIONS, loaded, randomSeed).Ok?
    ensures var a := Resolve(NO_OPTIONS, loaded, randomSeed).value;
      && a.scenario == S.Normal
      && a.initialPrice == 100.0 && a.tickInterval == 0.1 && a.tickSize == 0.01
      && a.throughputScale == 1.0 && a.seed == randomSeed
      && a.outputMode == Console && a.wireFormat == TextWire
      && a.multicastGroup == "239.255.0.1" && a.multicastPort == 5555
      && a.shockProb == 0.0003 && a.displayInterval == 1.0
  {
  }
}

=== FILE: engine.dfy ===
/** One tick of the order-generation engine as a pure state transformer.
    The tick runs these phases in order: the scenario's one-shot forced event,
    a random shock, order generation, the shuffle, sending and recording
    the live limit orders, TTL expiry, regime-driven cancellations, the
    statistics and display window, the regime transition, and the clock
    advance. Every random draw the engine makes is a field of `TickDraws`.
    The mid price after the shock and the price-path update is also a draw,
    because that update is floating-point numerics outside the model. */
module Engine {
  import opened Wrappers
  import opened Orders
  import R = Regimes
  import S = Scenarios
  import C = Config

  // ---------------------------------------------------------------------
  // Per-interval statistics

  datatype TickStats = TickStats(
    limitsGenerated: nat,
    marketsGenerated: nat,
    cancelsExpired: nat,
    cancelsRegime: nat,
    messagesSent: nat)

  const ZERO_STATS: TickStats := TickStats(0, 0, 0, 0, 0)

  /** Every counter back to zero. */
  function Reset(s: TickStats): (r: TickStats)
    ensures r.limitsGenerated == 0 && r.marketsGenerated == 0
    ensures r.cancelsExpired == 0 && r.cancelsRegime == 0 && r.messagesSent == 0
  {
    ZERO_STATS
  }

  function TotalOrders(s: TickStats): nat {
    s.limitsGenerated + s.marketsGenerated
  }

  function TotalCancels(s: TickStats): nat {
    s.cancelsExpired + s.cancelsRegime
  }

  /** Every message sent is an order or a cancel, and counted as one. */
  predicate Consistent(s: TickStats) {
    s.messagesSent == TotalOrders(s) + TotalCancels(s)
  }

  /** Counting one tick's messages: `limits` and `markets` orders sent,
      `expired` TTL cancels and `regime` regime cancels. */
  function Count(s: TickStats, limits: nat, markets: nat, expired: nat, regime: nat): (r: TickStats)
    ensures TotalOrders(r) == TotalOrders(s) + limits + markets
    ensures TotalCancels(r) == TotalCancels(s) + expired + regime
    ensures r.messagesSent == s.messagesSent + limits + markets + expired + regime
  {
    TickStats(
      s.limitsGenerated + limits,
      s.marketsGenerated + markets,
      s.cancelsExpired + expired,
      s.cancelsRegime + regime,
      s.messagesSent + limits + markets + expired + regime)
  }

  /** Resetting and counting both keep the message total equal to the sum
      of the order and cancel totals. */
  lemma StatsConsistency(s: TickStats, limits: nat, markets: nat, expired: nat, regime: nat)
    ensures Consistent(Reset(s))
    ensures Consistent(s) ==> Consistent(Count(s, limits, markets, expired, regime))
  {
    var c := Count(s, limits, markets, expired, regime);
    assert TotalOrders(c) + TotalCancels(c) == TotalOrders(s) + TotalCancels(s) + limits + markets + expired + regime;
  }

  // ---------------------------------------------------------------------
  // Draws, events and state

  /** The draws for one limit order: side roll, exponential price offset,
      log-normal size sample and uniform time to live. */
  datatype LimitDraw = LimitDraw(sideRoll: real, offset: real, sizeSample: real, ttl: real)

  /** The draws for one market order: side roll and log-normal size sample. */
  datatype MarketDraw = MarketDraw(sideRoll: real, sizeSample: real)

  /** Everything one tick draws from the random source. The lengths of
      `limits`, `markets` and `picks` are the Poisson counts of limit orders,
      market orders and regime cancels. `swaps` are the shuffle's index
      draws. The `...U` fields place a duration draw within its range, and
      the rolls are uniform samples compared against probabilities. */
  datatype TickDraws = TickDraws(
    forcedDurationU: real,
    flashDurationU: real,
    shockRoll: real,
    directionRoll: real,
    shockDurationU: real,
    mid: real,
    limits: seq<LimitDraw>,
    markets: seq<MarketDraw>,
    swaps: seq<nat>,
    picks: seq<nat>,
    transitionRoll: real,
    transitionDurationU: real)

  /** The ranges the random source guarantees for the draws that need one. */
  predicate DrawsInRange(d: TickDraws) {
    && 0.0 <= d.forcedDurationU <= 1.0
    && 0.0 <= d.flashDurationU < 1.0
    && 0.0 <= d.shockDurationU <= 1.0
    && 0.0 <= d.transitionRoll < 1.0
    && 0.0 <= d.transitionDurationU <= 1.0
  }

  /** A message the tick sends: an order, or the cancel of a live order. */
  datatype Event = SentOrder(order: Order) | Cancel(id: nat, time: real)

  /** The text wire line carrying an event. */
  function EventWire(e: Event): string {
    match e
    case SentOrder(o) => ToWire(o)
    case Cancel(id, time) => CancelToWire(id, time)
  }

  datatype EngineState = EngineState(
    nextId: nat,
    active: map<nat, Order>,
    regime: R.RegimeState,
    forcedFired: bool,
    now: real,
    stats: TickStats,
    sinceDisplay: real)

  /** The start of a run: id 0 next, no live orders, the scenario's starting
      regime freshly entered with a drawn dwell time, time zero, and an
      empty statistics window. */
  function Init(cfg: C.AppConfig, u: real): (st: EngineState)
    requires 0.0 <= u <= 1.0
    ensures st.nextId == 0 && st.active == map[] && !st.forcedFired && st.now == 0.0
    ensures var start := S.FromScenario(cfg.scenario).startingRegime;
      && st.regime.current == start && st.regime.previous == start
      && st.regime.timeInRegime == 0.0
      && R.ParamsOf(start).minDuration <= st.regime.regimeDuration <= R.ParamsOf(start).maxDuration
    ensures st.stats.limitsGenerated == 0 && st.stats.marketsGenerated == 0
    ensures st.stats.cancelsExpired == 0 && st.stats.cancelsRegime == 0 && st.stats.messagesSent == 0
    ensures st.sinceDisplay == 0.0
  {
    EngineState(0, map[], R.NewState(S.FromScenario(cfg.scenario).startingRegime, u),
                false, 0.0, ZERO_STATS, 0.0)
  }

  /** The distributions the engine builds before its first tick accept the
      configuration. For exact reals the only refusal is an empty
      time-to-live range, on which the uniform distribution cannot be built;
      the log-normal size distribution accepts every finite spread. */
  predicate StartupOk(cfg: C.AppConfig) {
    cfg.ttlMin < cfg.ttlMax
  }

  /** Starting the engine: it refuses a configuration its distributions
      reject, whatever the size parameters, and otherwise begins from `Init`. */
  function Start(cfg: C.AppConfig, u: real): (r: Option<EngineState>)
    requires 0.0 <= u <= 1.0
    ensures r.Some? <==> cfg.ttlMin < cfg.ttlMax
    ensures r.Some? ==> r == Some(Init(cfg, u))
  {
    if StartupOk(cfg) then Some(Init(cfg, u)) else None
  }

  /** The live-set invariant: every live order is a limit order stored under
      its own id, and that id has already been allocated. */
  predicate Valid(st: EngineState) {
    forall k :: k in st.active ==>
      k < st.nextId && st.active[k].id == k && st.active[k].orderType == Limit
  }

  // ---------------------------------------------------------------------
  // Forced event and shock

  /** The forced event is due: not yet fired, scheduled, and its time reached. */
  predicate ForcedDue(sc: S.ScenarioConfig, fired: bool, now: real) {
    !fired && sc.forcedEventTime > 0.0 && now >= sc.forcedEventTime
  }

  /** Regime state and fired flag after the forced-event phase. When due,
      the scenario's forced regime is entered; under FlashCrash its dwell
      time is then overridden by a short draw from [3, 7). */
  function ForcedPhase(scenario: S.Scenario, rs: R.RegimeState, fired: bool, now: real, u: real, flashU: real)
    : (r: (R.RegimeState, bool))
    requires 0.0 <= u <= 1.0 && 0.0 <= flashU < 1.0
    ensures var sc := S.FromScenario(scenario);
      if ForcedDue(sc, fired, now) then
        && r.1
        && r.0.current == sc.forcedRegime && r.0.previous == rs.current && r.0.timeInRegime == 0.0
        && (scenario == S.FlashCrash ==> 3.0 <= r.0.regimeDuration < 7.0)
        && (scenario != S.FlashCrash ==>
              R.ParamsOf(sc.forcedRegime).minDuration <= r.0.regimeDuration <= R.ParamsOf(sc.forcedRegime).maxDuration)
      else r == (rs, fired)
  {
    var sc := S.FromScenario(scenario);
    if ForcedDue(sc, fired, now) then
      var entered := R.TransitionTo(rs, sc.forcedRegime, u);
      var rs' := if scenario == S.FlashCrash then entered.(regimeDuration := 3.0 + flashU * 4.0) else entered;
      (rs', true)
    else (rs, fired)
  }

  /** Regime state after the shock phase. A shock happens when `roll` falls
      below the shock probability; its direction is up when `directionRoll`
      is below one half. Only a calm or recovering market changes regime on
      a shock: to Rally on an up shock, to Crash on a down shock. */
  function ShockPhase(rs: R.RegimeState, shockProb: real, roll: real, directionRoll: real, u: real)
    : (r: R.RegimeState)
    requires 0.0 <= u <= 1.0
    ensures r != rs <==> roll < shockProb && rs.current in {R.Calm, R.Recovery}
    ensures r != rs ==>
      && r.current == (if directionRoll < 0.5 then R.Rally else R.Crash)
      && r.previous == rs.current && r.timeInRegime == 0.0
  {
    if roll < shockProb && (rs.current == R.Calm || rs.current == R.Recovery) then
      var up := directionRoll < 0.5;
      R.TransitionTo(rs, if up then R.Rally else R.Crash, u)
    else rs
  }

  // ---------------------------------------------------------------------
  // Order generation

  const U32_MAX: nat := 0xFFFF_FFFF

  /** Price of a market buy: far above any book, so it always crosses. */
  const MARKET_BUY_PRICE: real := 999999.0

  /** Price of a market sell. */
  const MARKET_SELL_PRICE: real := 0.0

  /** An order size from a real-valued sample: rounded, converted to 32 bits
      the way a float-to-int cast does (saturating at both ends), then
      raised to at least one. */
  function OrderSize(sample: real): (size: nat)
    ensures 1 <= size <= U32_MAX
    ensures 1 <= Round(sample) <= U32_MAX ==> size == Round(sample)
    ensures Round(sample) < 1 ==> size == 1
    ensures Round(sample) > U32_MAX ==> size == U32_MAX
  {
    var n := Round(sample);
    var cast := if n < 0 then 0 else if n > U32_MAX then U32_MAX else n;
    if cast < 1 then 1 else cast
  }

  /** Buy exactly when the side roll falls below the regime's buy probability. */
  function SideOf(roll: real, buyProb: real): Side {
    if roll < buyProb then Buy else Sell
  }

  /** Limit price: `offset` below mid for a buy, above for a sell, rounded
      to the nearest multiple of the tick size. */
  function LimitPrice(side: Side, mid: real, offset: real, tickSize: real): real
    requires tickSize != 0.0
  {
    var raw := if side == Buy then mid - offset else mid + offset;
    (Round(raw / tickSize) as real) * tickSize
  }

  function MakeLimit(p: R.Params, tickSize: real, mid: real, now: real, id: nat, d: LimitDraw): (o: Order)
    requires tickSize != 0.0
    ensures o.id == id && o.orderType == Limit && o.createdAt == now && o.ttl == d.ttl
    ensures o.side == Buy <==> d.sideRoll < p.buyProb
    ensures 1 <= o.size <= U32_MAX
  {
    var side := SideOf(d.sideRoll, p.buyProb);
    Order(id, side, Limit, LimitPrice(side, mid, p.halfSpread + d.offset, tickSize),
          OrderSize(d.sizeSample), now, d.ttl)
  }

  function MakeMarket(p: R.Params, now: real, id: nat, d: MarketDraw): (o: Order)
    ensures o.id == id && o.orderType == Market && o.createdAt == now && o.ttl == 0.0
    ensures o.side == Buy <==> d.sideRoll < p.buyProb
    ensures o.price == (if o.side == Buy then MARKET_BUY_PRICE else MARKET_SELL_PRICE)
    ensures 1 <= o.size <= U32_MAX
  {
    var side := SideOf(d.sideRoll, p.buyProb);
    Order(id, side, Market, if side == Buy then MARKET_BUY_PRICE else MARKET_SELL_PRICE,
          OrderSize(d.sizeSample * 0.5 * p.sizeMult), now, 0.0)
  }

  /** A Poisson count is drawn only when its rate is positive; otherwise the
      count is zero. `draws` has one entry per event of the drawn count. */
  function Drawn<T>(rate: real, draws: seq<T>): seq<T> {
    if rate > 0.0 then draws else []
  }

  function LimitDraws(p: R.Params, cfg: C.AppConfig, d: TickDraws): seq<LimitDraw> {
    Drawn(p.limitRate * cfg.throughputScale * cfg.tickInterval, d.limits)
  }

  function MarketDraws(p: R.Params, cfg: C.AppConfig, d: TickDraws): seq<MarketDraw> {
    Drawn(p.marketRate * cfg.throughputScale * cfg.tickInterval, d.markets)
  }

  function CancelDraws(p: R.Params, cfg: C.AppConfig, d: TickDraws): seq<nat> {
    Drawn(p.cancelRate * cfg.throughputScale * cfg.tickInterval, d.picks)
  }

  /** This tick's orders before the shuffle: the limit orders, then the
      market orders, numbered consecutively from `firstId`. */
  function Generate(p: R.Params, cfg: C.AppConfig, mid: real, now: real, firstId: nat, d: TickDraws): seq<Order>
    requires cfg.tickSize != 0.0
  {
    var ls := LimitDraws(p, cfg, d);
    var ms := MarketDraws(p, cfg, d);
    seq(|ls|, i requires 0 <= i < |ls| => MakeLimit(p, cfg.tickSize, mid, now, firstId + i, ls[i]))
    + seq(|ms|, i requires 0 <= i < |ms| => MakeMarket(p, now, firstId + |ls| + i, ms[i]))
  }

  // ---------------------------------------------------------------------
  // Shuffle

  /** The orders' ids are pairwise distinct. */
  predicate IdsDistinct(os: seq<Order>) {
    forall i, j :: 0 <= i < |os| && 0 <= j < |os| && i != j ==> os[i].id != os[j].id
  }

  function Swap(s: seq<Order>, i: nat, j: nat): (r: seq<Order>)
    requires i < |s| && j < |s|
    ensures |r| == |s|
    ensures multiset(r) == multiset(s)
    ensures IdsDistinct(s) ==> IdsDistinct(r)
  {
    var r := s[i := s[j]][j := s[i]];
    assert IdsDistinct(s) ==> IdsDistinct(r) by {
      if IdsDistinct(s) {
        SwapDistinct(s, i, j);
      }
    }
    r
  }

  lemma SwapDistinct(s: seq<Order>, i: nat, j: nat)
    requires i < |s| && j < |s| && IdsDistinct(s)
    ensures IdsDistinct(s[i := s[j]][j := s[i]])
  {
    var r := s[i := s[j]][j := s[i]];
    forall a, b | 0 <= a < |r| && 0 <= b < |r| && a != b
      ensures r[a].id != r[b].id
    {
      var a' := if a == j then i else if a == i then j else a;
      var b' := if b == j then i else if b == i then j else b;
      assert r[a] == s[a'] && r[b] == s[b'];
    }
  }

  /** Fisher–Yates from position `i` down to 1: position `i` swaps with the
      position its draw selects among 0..i. */
  function ShuffleDown(s: seq<Order>, i: nat, swaps: seq<nat>): (r: seq<Order>)
    requires i < |s|
    ensures |r| == |s|
    ensures multiset(r) == multiset(s)
    ensures IdsDistinct(s) ==> IdsDistinct(r)
    decreases i
  {
    if i == 0 then s
    else
      var j := if |swaps| > 0 then swaps[0] % (i + 1) else i;
      ShuffleDown(Swap(s, i, j), i - 1, if |swaps| > 0 then swaps[1..] else [])
  }

  /** The send order: a permutation of the generated orders. */
  function Shuffle(s: seq<Order>, swaps: seq<nat>): (r: seq<Order>)
    ensures |r| == |s|
    ensures multiset(r) == multiset(s)
    ensures IdsDistinct(s) ==> IdsDistinct(r)
  {
    if |s| == 0 then s else ShuffleDown(s, |s| - 1, swaps)
  }

  // ---------------------------------------------------------------------
  // Live set: insertion, expiry, regime cancellations

  /** Ids of the limit orders among `os`. */
  function LimitIds(os: seq<Order>): set<nat> {
    set o | o in os && o.orderType == Limit :: o.id
  }

  /** Sending: each limit order, in send order, enters the live set under its id. */
  function InsertLimits(active: map<nat, Order>, os: seq<Order>): (r: map<nat, Order>)
    ensures r.Keys == active.Keys + LimitIds(os)
    decreases |os|
  {
    if |os| == 0 then active
    else
      var next := if os[0].orderType == Limit then active[os[0].id := os[0]] else active;
      assert LimitIds(os) == LimitIds(os[..1]) + LimitIds(os[1..]) by {
        assert os == os[..1] + os[1..];
      }
      InsertLimits(next, os[1..])
  }

  /** An order whose time to live has run out at `now`. A zero time to live
      (market orders) never expires. */
  predicate Expired(o: Order, now: real) {
    o.ttl > 0.0 && now - o.createdAt >= o.ttl
  }

  /** The ids the expiry pass cancels: live orders whose time to live has
      run out at `now`. */
  function ExpiredIds(active: map<nat, Order>, now: real): (r: set<nat>)
    ensures r <= active.Keys
    ensures forall k :: k in r <==> k in active && Expired(active[k], now)
  {
    set k | k in active && Expired(active[k], now)
  }

  /** Expiry only grows with time: an order expired at `now` is still
      expired at any later time, and one with no time to live never is. */
  lemma ExpiryMonotone(active: map<nat, Order>, now: real, later: real)
    requires now <= later
    ensures ExpiredIds(active, now) <= ExpiredIds(active, later)
    ensures forall k :: k in active && active[k].ttl == 0.0 ==> k !in ExpiredIds(active, later)
  {
  }

  /** A least element of a non-empty set, found by removing an arbitrary
      element and comparing it with the least of the rest. */
  ghost function LeastWitness(s: set<nat>): (m: nat)
    requires s != {}
    ensures m in s
    ensures forall x :: x in s ==> m <= x
    decreases |s|
  {
    var y :| y in s;
    var rest := s - {y};
    if rest == {} then
      assert forall x :: x in s ==> x == y by {
        forall x | x in s ensures x == y { assert x !in rest; }
      }
      y
    else
      assert |rest| == |s| - 1;
      var m := LeastWitness(rest);
      assert forall x :: x in s ==> x == y || x in rest;
      if y < m then y else m
  }

  /** A non-empty set of naturals has a least element. */
  lemma MinExists(s: set<nat>)
    requires s != {}
    ensures exists m :: m in s && forall x :: x in s ==> m <= x
  {
    var m := LeastWitness(s);
  }

  /** The least element of a non-empty set. */
  function Least(s: set<nat>): (m: nat)
    requires s != {}
    ensures m in s
    ensures forall x :: x in s ==> m <= x
  {
    MinExists(s);
    var m :| m in s && forall x :: x in s ==> m <= x;
    m
  }

  /** The elements of `s` in increasing order. The live set's iteration
      order is unspecified; the model fixes it to ascending ids. */
  function Ascending(s: set<nat>): (r: seq<nat>)
    ensures |r| == |s|
    ensures forall i :: 0 <= i < |r| ==> r[i] in s
    ensures forall x {:trigger x in r} :: x in s ==> x in r
    ensures forall i, j :: 0 <= i < j < |r| ==> r[i] < r[j]
    decreases |s|
  {
    if s == {} then []
    else
      var m := Least(s);
      var rest := Ascending(s - {m});
      assert forall i :: 0 <= i < |rest| ==> m < rest[i];
      var r := [m] + rest;
      assert forall x :: x in s ==> x == m || x in s - {m};
      r
  }

  /** No element occurs twice. */
  predicate NoDup(s: seq<nat>) {
    forall i, j :: 0 <= i < j < |s| ==> s[i] != s[j]
  }

  lemma NoDupCons(x: nat, s: seq<nat>)
    requires NoDup(s) && x !in s
    ensures NoDup([x] + s)
  {
    var r := [x] + s;
    assert forall j :: 0 < j < |r| ==> r[j] == s[j - 1];
  }

  function Min(a: nat, b: nat): nat {
    if a <= b then a else b
  }

  /** The live id a uniform pick selects: the draw, taken modulo the number
      of live ids, indexes the ids in ascending order. */
  function PickLive(active: map<nat, Order>, draw: nat): (k: nat)
    requires active != map[]
    ensures k in active
  {
    assert active.Keys != {} by {
      var x :| x in active;
    }
    var keys := Ascending(active.Keys);
    keys[draw % |keys|]
  }

  /** Regime-driven cancellations: up to `count` times, while orders are
      live, one live id is picked (its draw taken modulo the number of live
      ids, over ascending ids) and removed. Returns the cancelled ids in
      order and the remaining live set. */
  function RegimeCancels(active: map<nat, Order>, picks: seq<nat>, count: nat): (r: (seq<nat>, map<nat, Order>))
    ensures |r.0| == Min(count, |active.Keys|)
    ensures NoDup(r.0)
    ensures forall x :: x in r.0 ==> x in active
    ensures forall k :: k in r.1 <==> k in active && k !in r.0
    ensures forall k :: k in r.1 ==> r.1[k] == active[k]
    decreases count
  {
    if count == 0 || active == map[] then
      assert active == map[] ==> active.Keys == {};
      ([], active)
    else
      var pick := PickLive(active, if |picks| > 0 then picks[0] else 0);
      var smaller := active - {pick};
      assert smaller.Keys == active.Keys - {pick};
      assert |smaller.Keys| == |active.Keys| - 1;
      var rest := RegimeCancels(smaller, if |picks| > 0 then picks[1..] else [], count - 1);
      var ids := [pick] + rest.0;
      NoDupCons(pick, rest.0);
      assert forall k :: k in ids <==> k == pick || k in rest.0;
      (ids, rest.1)
  }

  /** What sending, expiry and the regime cancellations leave behind: the
      expired ids in ascending order, the regime-cancelled ids in pick
      order, and the live set that remains. */
  datatype Settlement = Settlement(expired: seq<nat>, cancelled: seq<nat>, live: map<nat, Order>)

  /** The live-set phases of a tick: the sent limit orders enter the live
      set, every order whose time to live has run out at `now` is cancelled,
      and then one regime cancellation is made per pick while orders are live.
      The picks are the tick's Poisson-drawn cancellation count, one draw each. */
  function Settle(active: map<nat, Order>, sent: seq<Order>, now: real, picks: seq<nat>): Settlement {
    var inserted := InsertLimits(active, sent);
    var expiredSet := ExpiredIds(inserted, now);
    var remaining := inserted - expiredSet;
    var (cancelled, live) :=
      if |picks| > 0 && |remaining.Keys| > 0
      then RegimeCancels(remaining, picks, Min(|picks|, |remaining.Keys|))
      else ([], remaining);
    Settlement(Ascending(expiredSet), cancelled, live)
  }

  // ---------------------------------------------------------------------
  // The tick

  /** What one tick did: the state after it, the orders in send order, the
      ids cancelled on expiry and by the regime, in send order, and whether
      the forced event fired in it. */
  datatype Step = Step(
    state: EngineState,
    sent: seq<Order>,
    expired: seq<nat>,
    cancelled: seq<nat>,
    forcedEvent: bool)

  /** The messages of a tick, in the order they go out: orders, then expiry
      cancels, then regime cancels, all stamped with the tick's time. */
  function Events(s: Step, now: real): seq<Event> {
    seq(|s.sent|, i requires 0 <= i < |s.sent| => SentOrder(s.sent[i]))
    + seq(|s.expired|, i requires 0 <= i < |s.expired| => Cancel(s.expired[i], now))
    + seq(|s.cancelled|, i requires 0 <= i < |s.cancelled| => Cancel(s.cancelled[i], now))
  }

  /** The regime state after the forced-event and shock phases, and the
      fired flag; these choose the parameters the rest of the tick uses. */
  function EventPhases(cfg: C.AppConfig, st: EngineState, d: TickDraws): (r: (R.RegimeState, bool))
    requires DrawsInRange(d)
  {
    var (rs1, fired) := ForcedPhase(cfg.scenario, st.regime, st.forcedFired, st.now,
                                    d.forcedDurationU, d.flashDurationU);
    (ShockPhase(rs1, cfg.shockProb, d.shockRoll, d.directionRoll, d.shockDurationU), fired)
  }

  /** The regime transition phase: the dwell clock advances by one tick,
      then a transition is attempted and, on a change, the new regime is
      entered. */
  function TransitionPhase(allow: bool, rs: R.RegimeState, dt: real, roll: real, u: real): (r: R.RegimeState)
    requires 0.0 <= u <= 1.0
    ensures r.current == R.TryTransition(rs.(timeInRegime := rs.timeInRegime + dt), allow, roll)
    ensures r.current == rs.current ==> r == rs.(timeInRegime := rs.timeInRegime + dt)
    ensures r.current != rs.current ==> r.previous == rs.current && r.timeInRegime == 0.0
  {
    var clocked := rs.(timeInRegime := rs.timeInRegime + dt);
    var next := R.TryTransition(clocked, allow, roll);
    if next != clocked.current then R.TransitionTo(clocked, next, u) else clocked
  }

  function Tick(cfg: C.AppConfig, st: EngineState, d: TickDraws): (s: Step)
    requires cfg.tickSize != 0.0
    requires DrawsInRange(d)
  {
    var (rs, fired) := EventPhases(cfg, st, d);
    var p := R.ParamsOf(rs.current);
    var generated := Generate(p, cfg, d.mid, st.now, st.nextId, d);
    var sent := Shuffle(generated, d.swaps);
    var settled := Settle(st.active, sent, st.now, CancelDraws(p, cfg, d));
    var counted := Count(st.stats, |LimitDraws(p, cfg, d)|, |MarketDraws(p, cfg, d)|,
                         |settled.expired|, |settled.cancelled|);
    var window := Advance(Window(counted, st.sinceDisplay), cfg.tickInterval, cfg.displayInterval);
    var allow := S.FromScenario(cfg.scenario).allowTransitions;
    var rs' := TransitionPhase(allow, rs, cfg.tickInterval, d.transitionRoll, d.transitionDurationU);
    Step(EngineState(st.nextId + |generated|, settled.live, rs', fired, st.now + cfg.tickInterval,
                     window.stats, window.since),
         sent, settled.expired, settled.cancelled, fired && !st.forcedFired)
  }

  /** The statistics window: the counters since the last display, and the
      time since then. */
  datatype Window = Window(stats: TickStats, since: real)

  /** Closing the tick in the display window: once the time since the last
      display reaches the interval, the summary is shown, the counters are
      reset and the window restarts; otherwise both carry on. */
  function Advance(w: Window, dt: real, interval: real): (r: Window)
    ensures w.since + dt >= interval ==>
      r.since == 0.0 && TotalOrders(r.stats) == 0 && TotalCancels(r.stats) == 0 && r.stats.messagesSent == 0
    ensures w.since + dt < interval ==> r == w.(since := w.since + dt)
  {
    if w.since + dt >= interval then Window(Reset(w.stats), 0.0) else w.(since := w.since + dt)
  }

  /** Every tick's draws are in range. */
  predicate AllDrawsInRange(ds: seq<TickDraws>) {
    forall i :: 0 <= i < |ds| ==> DrawsInRange(ds[i])
  }

  /** The draws of a run split into the first tick's and the rest's. */
  lemma DrawsTail(ds: seq<TickDraws>)
    requires |ds| > 0 && AllDrawsInRange(ds)
    ensures DrawsInRange(ds[0]) && AllDrawsInRange(ds[1..])
  {
    forall i | 0 <= i < |ds| - 1
      ensures DrawsInRange(ds[1..][i])
    {
      assert ds[1..][i] == ds[i + 1];
    }
  }

  /** A run of ticks from `st`, one per entry of `ds`. */
  function Run(cfg: C.AppConfig, st: EngineState, ds: seq<TickDraws>): (r: seq<Step>)
    requires cfg.tickSize != 0.0
    requires AllDrawsInRange(ds)
    ensures |r| == |ds|
    decreases |ds|
  {
    if |ds| == 0 then []
    else
      DrawsTail(ds);
      var s := Tick(cfg, st, ds[0]);
      [s] + Run(cfg, s.state, ds[1..])
  }
}

=== FILE: engine_facts.dfy ===
/** Properties of the engine's tick and of whole runs: id allocation, the
    live-set invariant, expiry, capped regime cancellation, the one-shot
    forced event, the statistics invariant, and the end-to-end fact that a
    run never reuses an id and never cancels an order twice or one it never
    sent. */
module EngineFacts {
  import opened Wrappers
  import opened Orders
  import opened Engine
  import R = Regimes
  import S = Scenarios
  import C = Config

  // ---------------------------------------------------------------------
  // Generation

  /** The orders generated in a tick: the limit orders first, then the market
      orders, with consecutive ids from `firstId`, all stamped `now` and all
      of size at least one. Market orders carry the sentinel prices and no
      time to live. */
  lemma GeneratedOrders(p: R.Params, cfg: C.AppConfig, mid: real, now: real, firstId: nat, d: TickDraws)
    requires cfg.tickSize != 0.0
    ensures var g := Generate(p, cfg, mid, now, firstId, d);
      var limits := |LimitDraws(p, cfg, d)|;
      && |g| == limits + |MarketDraws(p, cfg, d)|
      && (forall i :: 0 <= i < |g| ==> g[i].id == firstId + i)
      && (forall i :: 0 <= i < |g| ==> (g[i].orderType == Limit <==> i < limits))
      && (forall i :: 0 <= i < |g| ==> g[i].createdAt == now && 1 <= g[i].size <= U32_MAX)
      && (forall i :: 0 <= i < |g| ==> (g[i].side == Buy <==>
            (if i < limits then LimitDraws(p, cfg, d)[i].sideRoll else MarketDraws(p, cfg, d)[i - limits].sideRoll)
              < p.buyProb))
      && (forall i :: limits <= i < |g| ==>
            g[i].ttl == 0.0 && g[i].price == (if g[i].side == Buy then MARKET_BUY_PRICE else MARKET_SELL_PRICE))
      && IdsDistinct(g)
  {
    var g := Generate(p, cfg, mid, now, firstId, d);
    var ls := LimitDraws(p, cfg, d);
    var ms := MarketDraws(p, cfg, d);
    var lpart := seq(|ls|, i requires 0 <= i < |ls| => MakeLimit(p, cfg.tickSize, mid, now, firstId + i, ls[i]));
    var mpart := seq(|ms|, i requires 0 <= i < |ms| => MakeMarket(p, now, firstId + |ls| + i, ms[i]));
    assert g == lpart + mpart;
    assert forall i :: 0 <= i < |ls| ==> g[i] == MakeLimit(p, cfg.tickSize, mid, now, firstId + i, ls[i]);
    assert forall i :: |ls| <= i < |g| ==> g[i] == MakeMarket(p, now, firstId + i, ms[i - |ls|]);
  }

  /** A limit buy rests strictly below the mid and a limit sell strictly
      above it whenever the half-spread exceeds half a tick: the offset is
      at least the half-spread (the exponential draw is non-negative), and
      rounding to the tick moves the price by at most half a tick. */
  lemma LimitPriceSide(side: Side, mid: real, halfSpread: real, draw: real, tickSize: real)
    requires tickSize > 0.0 && draw >= 0.0 && halfSpread > tickSize / 2.0
    ensures side == Buy ==> LimitPrice(side, mid, halfSpread + draw, tickSize) < mid
    ensures side == Sell ==> LimitPrice(side, mid, halfSpread + draw, tickSize) > mid
  {
    var offset := halfSpread + draw;
    var raw := if side == Buy then mid - offset else mid + offset;
    var n := Round(raw / tickSize) as real;
    RoundedWithinHalfTick(raw, tickSize, n);
    assert LimitPrice(side, mid, offset, tickSize) == n * tickSize;
  }

  /** Rounding `raw / t` to the nearest integer `n` moves `n * t` at most
      half a tick away from `raw`. */
  lemma RoundedWithinHalfTick(raw: real, t: real, n: real)
    requires t > 0.0 && raw / t - 0.5 <= n <= raw / t + 0.5
    ensures raw - t / 2.0 <= n * t <= raw + t / 2.0
  {
    var q := raw / t;
    var x := n - q;
    ProductNonNegative(0.5 - x, t);
    ProductNonNegative(0.5 + x, t);
    assert q * t == raw;
  }

  lemma ProductNonNegative(a: real, b: real)
    requires a >= 0.0 && b >= 0.0
    ensures a * b >= 0.0
  {
  }

  /** With the default tick size of 0.01, every regime's half-spread exceeds
      half a tick, so limit buys always rest below the mid and sells above. */
  lemma DefaultTickBelowSpread(r: R.Regime)
    ensures R.ParamsOf(r).halfSpread > C.DEFAULT_FILE_CONFIG.simulation.tickSize / 2.0
  {
  }

  // ---------------------------------------------------------------------
  // Insertion

  /** Dropping the first order keeps the ids distinct, and no later order
      shares the first one's id. */
  lemma IdsDistinctTail(os: seq<Order>)
    requires |os| > 0 && IdsDistinct(os)
    ensures IdsDistinct(os[1..])
    ensures forall x :: x in os[1..] ==> x.id != os[0].id
  {
    var tail := os[1..];
    forall i, j | 0 <= i < |tail| && 0 <= j < |tail| && i != j
      ensures tail[i].id != tail[j].id
    {
      assert tail[i] == os[i + 1] && tail[j] == os[j + 1];
    }
    forall x | x in tail
      ensures x.id != os[0].id
    {
      var j :| 0 <= j < |tail| && tail[j] == x;
      assert os[j + 1] == x;
    }
  }

  /** Inserting limit orders leaves every live order whose id none of them
      carries untouched. */
  lemma {:induction false} InsertLimitsOthers(active: map<nat, Order>, os: seq<Order>)
    ensures forall k :: k in active && k !in LimitIds(os) ==> InsertLimits(active, os)[k] == active[k]
    decreases |os|
  {
    if |os| > 0 {
      var o := os[0];
      var tail := os[1..];
      var next := if o.orderType == Limit then active[o.id := o] else active;
      InsertLimitsOthers(next, tail);
      assert InsertLimits(active, os) == InsertLimits(next, tail);
      assert forall x :: x in tail ==> x in os;
      assert LimitIds(tail) <= LimitIds(os);
      forall k | k in active && k !in LimitIds(os)
        ensures InsertLimits(active, os)[k] == active[k]
      {
        assert o.orderType == Limit ==> o.id in LimitIds(os);
        assert k in next && next[k] == active[k];
      }
    }
  }

  /** After inserting the limit orders of `os` (ids pairwise distinct), each
      of them is stored under its id and every other live order is untouched. */
  lemma {:induction false} InsertLimitsValues(active: map<nat, Order>, os: seq<Order>)
    requires IdsDistinct(os)
    ensures forall i :: 0 <= i < |os| && os[i].orderType == Limit ==> InsertLimits(active, os)[os[i].id] == os[i]
    ensures forall k :: k in active && k !in LimitIds(os) ==> InsertLimits(active, os)[k] == active[k]
    decreases |os|
  {
    InsertLimitsOthers(active, os);
    if |os| > 0 {
      var o := os[0];
      var tail := os[1..];
      var next := if o.orderType == Limit then active[o.id := o] else active;
      IdsDistinctTail(os);
      InsertLimitsValues(next, tail);
      assert InsertLimits(active, os) == InsertLimits(next, tail);
      forall i | 0 <= i < |os| && os[i].orderType == Limit
        ensures InsertLimits(active, os)[os[i].id] == os[i]
      {
        if i > 0 {
          assert os[i] == tail[i - 1];
        } else {
          assert o.id !in LimitIds(tail);
          assert o.id in next;
        }
      }
    }
  }

  /** Inserting orders with distinct ids below `bound` into a live set whose
      entries are limit orders stored under their own ids below `bound`
      keeps all three properties. */
  lemma InsertKeepsValid(active: map<nat, Order>, sent: seq<Order>, bound: nat)
    requires forall k :: k in active ==> k < bound && active[k].id == k && active[k].orderType == Limit
    requires IdsDistinct(sent)
    requires forall o :: o in sent ==> o.id < bound
    ensures var ins := InsertLimits(active, sent);
      forall k :: k in ins ==> k < bound && ins[k].id == k && ins[k].orderType == Limit
  {
    var ins := InsertLimits(active, sent);
    InsertLimitsValues(active, sent);
    forall k | k in ins
      ensures k < bound && ins[k].id == k && ins[k].orderType == Limit
    {
      if k in LimitIds(sent) {
        var o :| o in sent && o.orderType == Limit && o.id == k;
        var i :| 0 <= i < |sent| && sent[i] == o;
      } else {
        assert k in active;
      }
    }
  }

  // ---------------------------------------------------------------------
  // Expiry and regime cancellations

  /** The live-set phases cancel distinct ids, each of an order live at that
      point (an older live order or one just sent): first every expired
      order, then min(picks, orders left) regime picks. Exactly the
      cancelled ids leave the live set, and nothing left in it has outlived
      its time to live. */
  lemma SettleCancels(active: map<nat, Order>, sent: seq<Order>, now: real, picks: seq<nat>)
    ensures var r := Settle(active, sent, now, picks);
      var ins := InsertLimits(active, sent);
      var cs := r.expired + r.cancelled;
      && NoDup(cs)
      && (forall x :: x in cs ==> x in ins)
      && (forall x :: x in r.expired <==> x in ins && Expired(ins[x], now))
      && (forall k :: k in r.live <==> k in ins && k !in cs)
      && (forall k :: k in r.live ==> r.live[k] == ins[k] && !Expired(ins[k], now))
      && |r.cancelled| == Min(|picks|, |(ins - ExpiredIds(ins, now)).Keys|)
  {
    var r := Settle(active, sent, now, picks);
    var ins := InsertLimits(active, sent);
    var expiredSet := ExpiredIds(ins, now);
    assert r.expired == Ascending(expiredSet);
    var remaining := ins - expiredSet;
    assert forall x :: x in r.expired <==> x in expiredSet;
    assert forall x :: x in r.cancelled ==> x in remaining;
    assert NoDup(r.expired);
    NoDupConcat(r.expired, r.cancelled);
  }

  /** A sent limit order with a positive time to live, stamped `now`, is not
      expired at `now`: no time has passed since its creation. */
  lemma SettleKeepsFresh(active: map<nat, Order>, sent: seq<Order>, now: real, picks: seq<nat>)
    requires IdsDistinct(sent)
    requires forall o :: o in sent ==> o.createdAt == now
    ensures var r := Settle(active, sent, now, picks);
      forall o :: o in sent && o.orderType == Limit && o.ttl > 0.0 ==> o.id !in r.expired
  {
    var r := Settle(active, sent, now, picks);
    var ins := InsertLimits(active, sent);
    InsertLimitsValues(active, sent);
    SettleCancels(active, sent, now, picks);
    forall o | o in sent && o.orderType == Limit && o.ttl > 0.0
      ensures o.id !in r.expired
    {
      var i :| 0 <= i < |sent| && sent[i] == o;
      assert ins[o.id] == o;
      assert !Expired(o, now);
    }
  }

  /** Shuffling orders numbered consecutively from `firstId` and stamped
      `now` gives distinct ids in the same range, all still stamped `now`. */
  lemma ShuffledIds(g: seq<Order>, swaps: seq<nat>, firstId: nat, now: real)
    requires forall i :: 0 <= i < |g| ==> g[i].id == firstId + i && g[i].createdAt == now
    ensures var r := Shuffle(g, swaps);
      && |r| == |g|
      && IdsDistinct(r)
      && (forall o :: o in r ==> firstId <= o.id < firstId + |g| && o.createdAt == now)
  {
    var r := Shuffle(g, swaps);
    assert IdsDistinct(g);
    forall o | o in r
      ensures firstId <= o.id < firstId + |g| && o.createdAt == now
    {
      assert o in multiset(r);
      assert o in multiset(g);
      var i :| 0 <= i < |g| && g[i] == o;
    }
  }

  // ---------------------------------------------------------------------
  // One tick

  /** A tick as the composition of its phases: it sends the shuffled
      generated orders, advances the id counter past them, and settles the
      live set with the cancellation picks drawn for the regime in force. */
  lemma TickShape(cfg: C.AppConfig, st: EngineState, d: TickDraws)
    requires cfg.tickSize != 0.0 && DrawsInRange(d)
    ensures var s := Tick(cfg, st, d);
      var p := R.ParamsOf(EventPhases(cfg, st, d).0.current);
      var g := Generate(p, cfg, d.mid, st.now, st.nextId, d);
      var r := Settle(st.active, s.sent, st.now, CancelDraws(p, cfg, d));
      && s.sent == Shuffle(g, d.swaps)
      && s.state.nextId == st.nextId + |g|
      && s.expired == r.expired && s.cancelled == r.cancelled && s.state.active == r.live
  {
  }

  /** A tick sends the orders it generated, in some order, with ids
      `nextId, nextId + 1, …` up to the new `nextId`: fresh, distinct, never
      below any id allocated before, and all stamped with the tick's start. */
  lemma TickIds(cfg: C.AppConfig, st: EngineState, d: TickDraws)
    requires cfg.tickSize != 0.0 && DrawsInRange(d)
    ensures var s := Tick(cfg, st, d);
      && s.state.nextId == st.nextId + |s.sent|
      && (forall o :: o in s.sent ==> st.nextId <= o.id < s.state.nextId && o.createdAt == st.now)
      && IdsDistinct(s.sent)
  {
    var p := R.ParamsOf(EventPhases(cfg, st, d).0.current);
    var g := Generate(p, cfg, d.mid, st.now, st.nextId, d);
    TickShape(cfg, st, d);
    GeneratedOrders(p, cfg, d.mid, st.now, st.nextId, d);
    ShuffledIds(g, d.swaps, st.nextId, st.now);
  }

  /** The insertion phase of a tick keeps the live-set invariant: the fresh
      limit orders land under their own ids, above every older live id. */
  lemma TickInsertion(cfg: C.AppConfig, st: EngineState, d: TickDraws)
    requires cfg.tickSize != 0.0 && DrawsInRange(d)
    requires Valid(st)
    ensures var s := Tick(cfg, st, d);
      var ins := InsertLimits(st.active, s.sent);
      forall k :: k in ins ==> k < s.state.nextId && ins[k].id == k && ins[k].orderType == Limit
  {
    var s := Tick(cfg, st, d);
    TickIds(cfg, st, d);
    InsertKeepsValid(st.active, s.sent, s.state.nextId);
  }

  /** The cancellations of a tick: the expired ids and then the regime
      picks, distinct, each naming an order live at that point (an older
      live order or one just sent), and exactly those leave the live set.
      Nothing left in the live set has outlived its time to live. */
  lemma TickCancels(cfg: C.AppConfig, st: EngineState, d: TickDraws)
    requires cfg.tickSize != 0.0 && DrawsInRange(d)
    ensures var s := Tick(cfg, st, d);
      var ins := InsertLimits(st.active, s.sent);
      var cs := s.expired + s.cancelled;
      && NoDup(cs)
      && (forall x :: x in cs ==> x in ins)
      && (forall x :: x in s.expired ==> Expired(ins[x], st.now))
      && (forall k :: k in s.state.active <==> k in ins && k !in cs)
      && (forall k :: k in s.state.active ==> s.state.active[k] == ins[k] && !Expired(ins[k], st.now))
  {
    var s := Tick(cfg, st, d);
    var p := R.ParamsOf(EventPhases(cfg, st, d).0.current);
    TickShape(cfg, st, d);
    SettleCancels(st.active, s.sent, st.now, CancelDraws(p, cfg, d));
  }

  /** A limit order sent in this tick with a positive time to live is never
      expired by the same tick. */
  lemma FreshOrdersSurviveExpiry(cfg: C.AppConfig, st: EngineState, d: TickDraws)
    requires cfg.tickSize != 0.0 && DrawsInRange(d)
    ensures var s := Tick(cfg, st, d);
      forall o :: o in s.sent && o.orderType == Limit && o.ttl > 0.0 ==> o.id !in s.expired
  {
    var s := Tick(cfg, st, d);
    var p := R.ParamsOf(EventPhases(cfg, st, d).0.current);
    TickShape(cfg, st, d);
    TickIds(cfg, st, d);
    SettleKeepsFresh(st.active, s.sent, st.now, CancelDraws(p, cfg, d));
  }

  /** The regime-cancellation pass removes exactly min(drawn count, live
      orders after expiry) ids; the drawn count is zero when the cancel rate
      scaled by throughput and tick length is not positive. */
  lemma TickCancelCount(cfg: C.AppConfig, st: EngineState, d: TickDraws)
    requires cfg.tickSize != 0.0 && DrawsInRange(d)
    ensures var s := Tick(cfg, st, d);
      var p := R.ParamsOf(EventPhases(cfg, st, d).0.current);
      var ins := InsertLimits(st.active, s.sent);
      |s.cancelled| == Min(|CancelDraws(p, cfg, d)|, |(ins - ExpiredIds(ins, st.now)).Keys|)
  {
    var s := Tick(cfg, st, d);
    var p := R.ParamsOf(EventPhases(cfg, st, d).0.current);
    TickShape(cfg, st, d);
    SettleCancels(st.active, s.sent, st.now, CancelDraws(p, cfg, d));
  }

  /** The live-set invariant holds after every tick. */
  lemma TickPreservesValid(cfg: C.AppConfig, st: EngineState, d: TickDraws)
    requires cfg.tickSize != 0.0 && DrawsInRange(d)
    requires Valid(st)
    ensures Valid(Tick(cfg, st, d).state)
  {
    TickInsertion(cfg, st, d);
    TickCancels(cfg, st, d);
  }

  /** The message counters stay consistent across a tick, whether or not the
      display window closes and resets them. */
  lemma TickStatsConsistent(cfg: C.AppConfig, st: EngineState, d: TickDraws)
    requires cfg.tickSize != 0.0 && DrawsInRange(d)
    requires Consistent(st.stats)
    ensures Consistent(Tick(cfg, st, d).state.stats)
  {
    var s := Tick(cfg, st, d);
    var (rs, fired) := EventPhases(cfg, st, d);
    var p := R.ParamsOf(rs.current);
    var counted := Count(st.stats, |LimitDraws(p, cfg, d)|, |MarketDraws(p, cfg, d)|, |s.expired|, |s.cancelled|);
    StatsConsistency(st.stats, |LimitDraws(p, cfg, d)|, |MarketDraws(p, cfg, d)|, |s.expired|, |s.cancelled|);
    TickWindow(cfg, st, d);
    WindowConsistent(Window(counted, st.sinceDisplay), cfg.tickInterval, cfg.displayInterval);
  }

  /** The statistics after a tick: this tick's messages counted into the
      open window, which then closes if the display interval has passed. */
  lemma TickWindow(cfg: C.AppConfig, st: EngineState, d: TickDraws)
    requires cfg.tickSize != 0.0 && DrawsInRange(d)
    ensures var s := Tick(cfg, st, d);
      var p := R.ParamsOf(EventPhases(cfg, st, d).0.current);
      var counted := Count(st.stats, |LimitDraws(p, cfg, d)|, |MarketDraws(p, cfg, d)|, |s.expired|, |s.cancelled|);
      var w := Advance(Window(counted, st.sinceDisplay), cfg.tickInterval, cfg.displayInterval);
      s.state.stats == w.stats && s.state.sinceDisplay == w.since
  {
  }

  /** What the counters record for a tick: while the display window stays
      open, the order total grows by the orders sent, the cancel total by
      the cancels sent, and the message count by the tick's events; when the
      window closes, every counter and the window clock restart from zero. */
  lemma TickMessages(cfg: C.AppConfig, st: EngineState, d: TickDraws)
    requires cfg.tickSize != 0.0 && DrawsInRange(d)
    ensures var s := Tick(cfg, st, d);
      if st.sinceDisplay + cfg.tickInterval < cfg.displayInterval then
        && TotalOrders(s.state.stats) == TotalOrders(st.stats) + |s.sent|
        && TotalCancels(s.state.stats) == TotalCancels(st.stats) + |s.expired| + |s.cancelled|
        && s.state.stats.messagesSent == st.stats.messagesSent + |Events(s, st.now)|
        && s.state.sinceDisplay == st.sinceDisplay + cfg.tickInterval
      else
        && TotalOrders(s.state.stats) == 0 && TotalCancels(s.state.stats) == 0
        && s.state.stats.messagesSent == 0 && s.state.sinceDisplay == 0.0
  {
    var s := Tick(cfg, st, d);
    var p := R.ParamsOf(EventPhases(cfg, st, d).0.current);
    var g := Generate(p, cfg, d.mid, st.now, st.nextId, d);
    var limits, markets := |LimitDraws(p, cfg, d)|, |MarketDraws(p, cfg, d)|;
    TickShape(cfg, st, d);
    TickWindow(cfg, st, d);
    assert |g| == limits + markets;
    WindowCounts(st.stats, limits, markets, |s.expired|, |s.cancelled|,
                 st.sinceDisplay, cfg.tickInterval, cfg.displayInterval);
    EventsCount(s, st.now);
  }

  /** One tick's counts entered into the open window, which then either
      carries on or closes and restarts from zero. */
  lemma WindowCounts(s: TickStats, limits: nat, markets: nat, expired: nat, regime: nat,
                     since: real, dt: real, interval: real)
    ensures var w := Advance(Window(Count(s, limits, markets, expired, regime), since), dt, interval);
      if since + dt < interval then
        && TotalOrders(w.stats) == TotalOrders(s) + limits + markets
        && TotalCancels(w.stats) == TotalCancels(s) + expired + regime
        && w.stats.messagesSent == s.messagesSent + limits + markets + expired + regime
        && w.since == since + dt
      else
        && TotalOrders(w.stats) == 0 && TotalCancels(w.stats) == 0
        && w.stats.messagesSent == 0 && w.since == 0.0
  {
  }

  /** A tick sends one message per order and one per cancelled id. */
  lemma EventsCount(s: Step, now: real)
    ensures |Events(s, now)| == |s.sent| + |s.expired| + |s.cancelled|
  {
  }

  /** Each event of a tick goes out as a line that decodes to the matching
      frame: an order's fields, or the cancelled id, with the tick's time. */
  lemma EventWireDecodes(e: Event)
    ensures e.SentOrder? ==> (Decode(EventWire(e)) ==
      Some(OrderFrame(e.order.id, e.order.side, e.order.orderType, Hundredths(e.order.price),
                      e.order.size, Thousandths(e.order.createdAt))))
    ensures e.Cancel? ==> Decode(EventWire(e)) == Some(CancelFrame(e.id, Thousandths(e.time)))
  {
    match e
    case SentOrder(o) => DecodeOrder(o);
    case Cancel(id, time) => DecodeCancel(id, time);
  }

  lemma WindowConsistent(w: Window, dt: real, interval: real)
    requires Consistent(w.stats)
    ensures Consistent(Advance(w, dt, interval).stats)
  {
    var r := Advance(w, dt, interval);
    assert r.stats.messagesSent == TotalOrders(r.stats) + TotalCancels(r.stats);
  }

  /** The forced event fires in a tick exactly when it is due at the tick's
      start; afterwards it is marked as fired. */
  lemma TickForcedEvent(cfg: C.AppConfig, st: EngineState, d: TickDraws)
    requires cfg.tickSize != 0.0 && DrawsInRange(d)
    ensures Tick(cfg, st, d).forcedEvent <==> ForcedDue(S.FromScenario(cfg.scenario), st.forcedFired, st.now)
    ensures Tick(cfg, st, d).state.forcedFired <==> st.forcedFired || Tick(cfg, st, d).forcedEvent
  {
  }

  /** The Normal and Volatile presets schedule no forced event, so none ever fires. */
  lemma NoForcedEventUnscheduled(cfg: C.AppConfig, st: EngineState, d: TickDraws)
    requires cfg.tickSize != 0.0 && DrawsInRange(d)
    requires cfg.scenario == S.Normal || cfg.scenario == S.Volatile
    ensures !Tick(cfg, st, d).forcedEvent
  {
    TickForcedEvent(cfg, st, d);
  }

  // ---------------------------------------------------------------------
  // Runs

  /** A run starts from a state that meets the live-set invariant and whose
      counters are consistent, so every tick's guarantees apply from the first. */
  lemma InitValid(cfg: C.AppConfig, u: real)
    requires 0.0 <= u <= 1.0
    ensures Valid(Init(cfg, u)) && Consistent(Init(cfg, u).stats)
  {
  }

  /** What one tick guarantees about the step from `st` to `s`: the forced
      event bookkeeping, the statistics invariant, and, from a valid state,
      fresh distinct ids, cancels of live orders only, and a valid result. */
  predicate StepOk(st: EngineState, s: Step) {
    && (s.forcedEvent ==> !st.forcedFired)
    && (s.state.forcedFired <==> st.forcedFired || s.forcedEvent)
    && (Consistent(st.stats) ==> Consistent(s.state.stats))
    && (Valid(st) ==>
          && Valid(s.state)
          && s.state.nextId == st.nextId + |s.sent|
          && (forall o :: o in s.sent ==> st.nextId <= o.id < s.state.nextId)
          && IdsDistinct(s.sent)
          && NoDup(s.expired + s.cancelled)
          && (forall x :: x in s.expired + s.cancelled ==> x in st.active || x in LimitIds(s.sent))
          && (forall k :: k in s.state.active ==>
                (k in st.active || k in LimitIds(s.sent)) && k !in s.expired + s.cancelled))
  }

  lemma TickOk(cfg: C.AppConfig, st: EngineState, d: TickDraws)
    requires cfg.tickSize != 0.0 && DrawsInRange(d)
    ensures StepOk(st, Tick(cfg, st, d))
  {
    var s := Tick(cfg, st, d);
    TickForcedEvent(cfg, st, d);
    assert s.forcedEvent ==> !st.forcedFired;
    assert s.state.forcedFired <==> st.forcedFired || s.forcedEvent;
    if Consistent(st.stats) {
      TickStatsConsistent(cfg, st, d);
    }
    if Valid(st) {
      TickIds(cfg, st, d);
      TickCancels(cfg, st, d);
      TickPreservesValid(cfg, st, d);
      var ins := InsertLimits(st.active, s.sent);
      assert ins.Keys == st.active.Keys + LimitIds(s.sent);
    }
  }

  /** `t` is a sequence of steps starting at `st`, each satisfying `StepOk`
      and each starting where the previous one ended. */
  predicate Chain(st: EngineState, t: seq<Step>)
    decreases |t|
  {
    |t| == 0 || (StepOk(st, t[0]) && Chain(t[0].state, t[1..]))
  }

  /** Every run is such a chain. */
  lemma {:induction false} RunIsChain(cfg: C.AppConfig, st: EngineState, ds: seq<TickDraws>)
    requires cfg.tickSize != 0.0 && AllDrawsInRange(ds)
    ensures Chain(st, Run(cfg, st, ds))
    decreases |ds|
  {
    if |ds| > 0 {
      DrawsTail(ds);
      var s := Tick(cfg, st, ds[0]);
      var rest := Run(cfg, s.state, ds[1..]);
      TickOk(cfg, st, ds[0]);
      RunIsChain(cfg, s.state, ds[1..]);
      assert Run(cfg, st, ds) == [s] + rest;
      assert ([s] + rest)[1..] == rest;
    }
  }

  /** Along a chain the forced event fires at most once, and never once it
      has fired before the chain starts. */
  lemma {:induction false} ChainForcedOnce(st: EngineState, t: seq<Step>)
    requires Chain(st, t)
    ensures st.forcedFired ==> forall i :: 0 <= i < |t| ==> !t[i].forcedEvent
    ensures forall i, j :: 0 <= i < j < |t| ==> !(t[i].forcedEvent && t[j].forcedEvent)
    decreases |t|
  {
    if |t| > 0 {
      var rest := t[1..];
      ChainForcedOnce(t[0].state, rest);
      assert forall i :: 1 <= i < |t| ==> t[i] == rest[i - 1];
    }
  }

  /** The forced event fires at most once in a run, and never once it has
      fired before the run starts. */
  lemma ForcedEventOnce(cfg: C.AppConfig, st: EngineState, ds: seq<TickDraws>)
    requires cfg.tickSize != 0.0 && AllDrawsInRange(ds)
    ensures var t := Run(cfg, st, ds);
      && (st.forcedFired ==> forall i :: 0 <= i < |t| ==> !t[i].forcedEvent)
      && (forall i, j :: 0 <= i < j < |t| ==> !(t[i].forcedEvent && t[j].forcedEvent))
  {
    RunIsChain(cfg, st, ds);
    ChainForcedOnce(st, Run(cfg, st, ds));
  }

  /** Ids of orders, in order. */
  function Ids(os: seq<Order>): (r: seq<nat>)
    ensures |r| == |os|
    ensures forall i :: 0 <= i < |os| ==> r[i] == os[i].id
  {
    seq(|os|, i requires 0 <= i < |os| => os[i].id)
  }

  /** All order ids a run sends, in send order. */
  function SentIds(t: seq<Step>): seq<nat> {
    if |t| == 0 then [] else Ids(t[0].sent) + SentIds(t[1..])
  }

  /** All ids a run cancels, in send order. */
  function CancelIds(t: seq<Step>): seq<nat> {
    if |t| == 0 then [] else t[0].expired + t[0].cancelled + CancelIds(t[1..])
  }

  /** The ids of all limit orders a run sends. */
  function SentLimitIds(t: seq<Step>): set<nat> {
    if |t| == 0 then {} else LimitIds(t[0].sent) + SentLimitIds(t[1..])
  }

  lemma NoDupConcat(a: seq<nat>, b: seq<nat>)
    requires NoDup(a) && NoDup(b)
    requires forall x :: x in a ==> x !in b
    ensures NoDup(a + b)
  {
    var c := a + b;
    forall i, j | 0 <= i < j < |c|
      ensures c[i] != c[j]
    {
      if j >= |a| && i < |a| {
        assert c[i] in a && c[j] == b[j - |a|];
      } else if i >= |a| {
        assert c[i] == b[i - |a|] && c[j] == b[j - |a|];
      }
    }
  }

  /** The history of a chain from a valid state: the ids it sends are fresh
      and distinct, the ids it cancels are distinct, and each cancelled id
      was live at the start or sent as a limit order along the chain. */
  lemma {:induction false} ChainHistory(st: EngineState, t: seq<Step>)
    requires Chain(st, t)
    requires Valid(st)
    ensures forall x :: x in SentIds(t) ==> x >= st.nextId
    ensures forall x :: x in SentLimitIds(t) ==> x >= st.nextId
    ensures NoDup(SentIds(t))
    ensures NoDup(CancelIds(t))
    ensures forall x :: x in CancelIds(t) ==> x in st.active || x in SentLimitIds(t)
    decreases |t|
  {
    if |t| > 0 {
      var s := t[0];
      var rest := t[1..];
      ChainHistory(s.state, rest);
      var ids := Ids(s.sent);
      var cs := s.expired + s.cancelled;
      assert SentIds(t) == ids + SentIds(rest);
      assert CancelIds(t) == cs + CancelIds(rest);
      assert SentLimitIds(t) == LimitIds(s.sent) + SentLimitIds(rest);
      forall x | x in ids
        ensures st.nextId <= x < s.state.nextId
      {
        var i :| 0 <= i < |ids| && ids[i] == x;
        assert s.sent[i] in s.sent;
      }
      assert NoDup(ids);
      NoDupConcat(ids, SentIds(rest));
      assert forall x :: x in cs ==> x < s.state.nextId && x !in s.state.active;
      NoDupConcat(cs, CancelIds(rest));
    }
  }

  /** End to end, from a fresh engine (no live orders, as `Init` starts):
      a run never sends two orders with the same id, never cancels an id
      twice, and only ever cancels ids of limit orders it sent. */
  lemma RunIdentities(cfg: C.AppConfig, st: EngineState, ds: seq<TickDraws>)
    requires st.active == map[]
    requires cfg.tickSize != 0.0 && AllDrawsInRange(ds)
    ensures var t := Run(cfg, st, ds);
      && NoDup(SentIds(t))
      && NoDup(CancelIds(t))
      && (forall x :: x in CancelIds(t) ==> x in SentLimitIds(t))
  {
    RunIsChain(cfg, st, ds);
    ChainHistory(st, Run(cfg, st, ds));
  }
}

=== FILE: order.dfy ===
/** Orders and their text wire messages. An ORDER line is
      ORDER|id=<id>|side=<BUY|SELL>|type=<LIMIT|MARKET>|price=<p>|size=<n>|time=<t>
    and a CANCEL line is
      CANCEL|id=<id>|time=<t>
    where the price carries exactly two fractional digits and the time exactly
    three. Prices and times are reals; the rendering rounds them to
    fixed-point hundredths and thousandths and prints those integers. */
module Orders {
  import opened Wrappers
  import opened Text

  datatype Side = Buy | Sell

  datatype OrderType = Limit | Market

  function SideName(s: Side): string {
    match s
    case Buy => "BUY"
    case Sell => "SELL"
  }

  function TypeName(t: OrderType): string {
    match t
    case Limit => "LIMIT"
    case Market => "MARKET"
  }

  /** Inverse of `SideName`: exact, case-sensitive match. */
  function ParseSide(s: string): (r: Option<Side>)
    ensures r.Some? ==> SideName(r.value) == s
  {
    if s == "BUY" then Some(Buy) else if s == "SELL" then Some(Sell) else None
  }

  /** Inverse of `TypeName`: exact, case-sensitive match. */
  function ParseType(s: string): (r: Option<OrderType>)
    ensures r.Some? ==> TypeName(r.value) == s
  {
    if s == "LIMIT" then Some(Limit) else if s == "MARKET" then Some(Market) else None
  }

  /** The side and type names are injective: each parses back to the value
      it names, so no two values share a rendering. */
  lemma NamesRoundTrip(s: Side, t: OrderType)
    ensures ParseSide(SideName(s)) == Some(s)
    ensures ParseType(TypeName(t)) == Some(t)
  {
  }

  datatype Order = Order(
    id: nat,
    side: Side,
    orderType: OrderType,
    price: real,
    size: nat,
    createdAt: real,
    ttl: real)

  /** Nearest integer, halfway cases away from zero (`f64::round`). */
  function Round(x: real): (r: int)
    ensures x >= 0.0 ==> x - 0.5 < r as real <= x + 0.5
    ensures x < 0.0 ==> x - 0.5 <= r as real < x + 0.5
  {
    if x >= 0.0 then (x + 0.5).Floor else -((-x + 0.5).Floor)
  }

  /** Rounding leaves integers alone. */
  lemma RoundOfInt(n: int)
    ensures Round(n as real) == n
  {
  }

  function Abs(x: real): real {
    if x < 0.0 then -x else x
  }

  /** `x` as a fixed-point number in units of 1/`scale`, as `{:.N}` shows
      it: the sign of `x` itself, and the magnitude rounded to the nearest
      unit. A negative `x` keeps its sign even when its magnitude rounds to
      zero. */
  function Scaled(x: real, scale: real): (f: Fixed)
    requires scale > 0.0
    ensures f.negative <==> x < 0.0
    ensures Abs(x) * scale - 0.5 < f.magnitude as real <= Abs(x) * scale + 0.5
  {
    var r := Round(Abs(x) * scale);
    Fixed(x < 0.0, r)
  }

  /** The price in fixed-point hundredths, as `{:.2}` shows it. */
  function Hundredths(price: real): Fixed {
    Scaled(price, 100.0)
  }

  /** The time in fixed-point thousandths, as `{:.3}` shows it. */
  function Thousandths(time: real): Fixed {
    Scaled(time, 1000.0)
  }

  /** The ORDER line: its seven fields joined with `|`. */
  function ToWire(o: Order): string {
    Join(OrderFields(o), '|')
  }

  /** The CANCEL line: its three fields joined with `|`. */
  function CancelToWire(id: nat, time: real): string {
    Join(CancelFields(id, time), '|')
  }

  /** What a consumer reads back from a wire line: the integer fields and
      the fixed-point price and time. */
  datatype Frame =
    | OrderFrame(id: nat, side: Side, orderType: OrderType, price: Fixed, size: nat, time: Fixed)
    | CancelFrame(id: nat, time: Fixed)

  function FieldNat(field: string, key: string): Option<nat> {
    var v :- After(field, key);
    ParseNat(v)
  }

  function FieldFixed(field: string, key: string, k: nat): Option<Fixed>
    requires k >= 1
  {
    var v :- After(field, key);
    ParseFixed(v, k)
  }

  /** Model-side decoder of one wire line. */
  function Decode(line: string): Option<Frame> {
    var f := Split(line, '|');
    if |f| == 7 && f[0] == "ORDER" then
      var id :- FieldNat(f[1], "id=");
      var sideName :- After(f[2], "side=");
      var side :- ParseSide(sideName);
      var typeName :- After(f[3], "type=");
      var orderType :- ParseType(typeName);
      var price :- FieldFixed(f[4], "price=", 2);
      var size :- FieldNat(f[5], "size=");
      var time :- FieldFixed(f[6], "time=", 3);
      Some(OrderFrame(id, side, orderType, price, size, time))
    else if |f| == 3 && f[0] == "CANCEL" then
      var id :- FieldNat(f[1], "id=");
      var time :- FieldFixed(f[2], "time=", 3);
      Some(CancelFrame(id, time))
    else None
  }

  lemma FixedHasNoBar(f: Fixed, k: nat)
    requires k >= 1
    ensures '|' !in FixedToString(f, k)
  {
    FixedAvoids(f, k, '|');
  }

  /** The seven fields of an ORDER line, in wire order. */
  function OrderFields(o: Order): seq<string> {
    [ "ORDER",
      "id=" + NatToString(o.id),
      "side=" + SideName(o.side),
      "type=" + TypeName(o.orderType),
      "price=" + FixedToString(Hundredths(o.price), 2),
      "size=" + NatToString(o.size),
      "time=" + FixedToString(Thousandths(o.createdAt), 3) ]
  }

  /** Splitting an ORDER line on `|` gives exactly its seven fields: no
      rendered value contains the separator. */
  lemma OrderWireFields(o: Order)
    ensures Split(ToWire(o), '|') == OrderFields(o)
    ensures |Split(ToWire(o), '|')| == 7
  {
    var f := OrderFields(o);
    DigitsHaveNo(NatToString(o.id), '|');
    DigitsHaveNo(NatToString(o.size), '|');
    FixedHasNoBar(Hundredths(o.price), 2);
    FixedHasNoBar(Thousandths(o.createdAt), 3);
    assert forall i :: 0 <= i < |f| ==> '|' !in f[i];
    SplitJoin(f, '|');
  }

  /** The three fields of a CANCEL line, in wire order. */
  function CancelFields(id: nat, time: real): seq<string> {
    ["CANCEL", "id=" + NatToString(id), "time=" + FixedToString(Thousandths(time), 3)]
  }

  lemma CancelWireFields(id: nat, time: real)
    ensures Split(CancelToWire(id, time), '|') == CancelFields(id, time)
    ensures |Split(CancelToWire(id, time), '|')| == 3
  {
    var f := CancelFields(id, time);
    DigitsHaveNo(NatToString(id), '|');
    FixedHasNoBar(Thousandths(time), 3);
    assert forall i :: 0 <= i < |f| ==> '|' !in f[i];
    SplitJoin(f, '|');
  }

  lemma FieldNatOf(key: string, n: nat)
    ensures FieldNat(key + NatToString(n), key) == Some(n)
  {
    assert (key + NatToString(n))[|key|..] == NatToString(n);
    ParseNatToString(n);
  }

  lemma FieldFixedOf(key: string, f: Fixed, k: nat)
    requires k >= 1
    ensures FieldFixed(key + FixedToString(f, k), key, k) == Some(f)
  {
    assert (key + FixedToString(f, k))[|key|..] == FixedToString(f, k);
    ParseFixedToString(f, k);
  }

  lemma AfterKey(key: string, v: string)
    ensures After(key + v, key) == Some(v)
  {
    assert (key + v)[|key|..] == v;
  }

  /** Decoding an ORDER line recovers id, side, type and size unchanged, and
      the price and time as the fixed-point values the line shows. */
  lemma DecodeOrder(o: Order)
    ensures Decode(ToWire(o)) ==
      Some(OrderFrame(o.id, o.side, o.orderType, Hundredths(o.price), o.size, Thousandths(o.createdAt)))
  {
    OrderWireFields(o);
    FieldNatOf("id=", o.id);
    AfterKey("side=", SideName(o.side));
    AfterKey("type=", TypeName(o.orderType));
    NamesRoundTrip(o.side, o.orderType);
    FieldFixedOf("price=", Hundredths(o.price), 2);
    FieldNatOf("size=", o.size);
    FieldFixedOf("time=", Thousandths(o.createdAt), 3);
  }

  /** Decoding a CANCEL line recovers the id and the fixed-point time. */
  lemma DecodeCancel(id: nat, time: real)
    ensures Decode(CancelToWire(id, time)) == Some(CancelFrame(id, Thousandths(time)))
  {
    CancelWireFields(id, time);
    FieldNatOf("id=", id);
    FieldFixedOf("time=", Thousandths(time), 3);
  }

  /** A time or price that already sits on the fixed-point grid is
      rendered exactly: decoding gives back the grid value. */
  lemma GridValuesExact(cents: int, millis: int)
    ensures Value(Hundredths(cents as real / 100.0)) == cents
    ensures Value(Thousandths(millis as real / 1000.0)) == millis
  {
    var c: nat := if cents < 0 then -cents else cents;
    var m: nat := if millis < 0 then -millis else millis;
    assert Abs(cents as real / 100.0) * 100.0 == c as real;
    assert Abs(millis as real / 1000.0) * 1000.0 == m as real;
    RoundOfInt(c);
    RoundOfInt(m);
  }

  /** The two message kinds never render to the same line, and equal ORDER
      lines carry equal id, side, type and size. */
  lemma WireDistinguishes(o: Order, o': Order, id: nat, time: real)
    ensures ToWire(o) != CancelToWire(id, time)
    ensures ToWire(o) == ToWire(o') ==>
      o.id == o'.id && o.side == o'.side && o.orderType == o'.orderType && o.size == o'.size
  {
    DecodeOrder(o);
    DecodeOrder(o');
    DecodeCancel(id, time);
  }

  /** The worked example of the wire format: the line for order 42 splits
      into exactly the fields
      ORDER, id=42, side=BUY, type=LIMIT, price=99.85, size=23, time=1.300. */
  lemma WireExample()
    ensures var o := Order(42, Buy, Limit, 99.85, 23, 1.3, 5.0);
      && OrderFields(o)
        == ["ORDER", "id=42", "side=BUY", "type=LIMIT", "price=99.85", "size=23", "time=1.300"]
  {
    var o := Order(42, Buy, Limit, 99.85, 23, 1.3, 5.0);
    ExampleRenderings();
    var f := OrderFields(o);
    assert f[0] == "ORDER" && f[1] == "id=42" && f[5] == "size=23";
    assert f[2] == "side=BUY" && f[3] == "type=LIMIT";
    assert f[4] == "price=99.85";
    assert f[6] == "time=1.300";
  }

  /** The worked example of a cancel line: CANCEL, id=42, time=2.500. */
  lemma CancelExample()
    ensures CancelFields(42, 2.5) == ["CANCEL", "id=42", "time=2.500"]
  {
    ExampleRenderings();
    var c := CancelFields(42, 2.5);
    assert c[1] == "id=42" && c[2] == "time=2.500";
  }

  lemma ExampleRenderings()
    ensures NatToString(42) == "42" && NatToString(23) == "23"
    ensures FixedToString(Hundredths(99.85), 2) == "99.85"
    ensures FixedToString(Thousandths(1.3), 3) == "1.300"
    ensures FixedToString(Thousandths(2.5), 3) == "2.500"
  {
    assert NatToString(42) == "42";
    assert NatToString(23) == "23";
    assert Hundredths(99.85) == Fixed(false, 9985) by { RoundOfInt(9985); }
    assert Thousandths(1.3) == Fixed(false, 1300) by { RoundOfInt(1300); }
    assert Thousandths(2.5) == Fixed(false, 2500) by { RoundOfInt(2500); }
    FixedExample(9985, 2, 99, "99", "85");
    FixedExample(1300, 3, 1, "1", "300");
    FixedExample(2500, 3, 2, "2", "500");
  }

  /** One worked fixed-point rendering, from its two digit groups. */
  lemma FixedExample(mag: nat, k: nat, high: nat, highText: string, low: string)
    requires k >= 1
    requires HighDigits(mag, k) == high && NatToString(high) == highText && LowDigits(mag, k) == low
    ensures FixedToString(Fixed(false, mag), k) == highText + "." + low
  {
    FixedFromParts(Fixed(false, mag), k, highText, low);
  }

  /** A non-negative fixed-point rendering from its two digit groups. */
  lemma FixedFromParts(f: Fixed, k: nat, high: string, low: string)
    requires k >= 1 && !f.negative
    requires NatToString(HighDigits(f.magnitude, k)) == high && LowDigits(f.magnitude, k) == low
    ensures FixedToString(f, k) == high + "." + low
  {
    assert FixedToString(f, k) == "" + UnsignedFixed(f.magnitude, k);
  }

  /** A negative price too small to show a non-zero cent still shows its
      minus sign: -0.004 renders as -0.00. */
  lemma NegativeBelowHalfCent()
    ensures Hundredths(-0.004) == Fixed(true, 0)
    ensures FixedToString(Hundredths(-0.004), 2) == "-0.00"
  {
    assert Hundredths(-0.004) == Fixed(true, 0) by { RoundOfInt(0); }
    assert UnsignedFixed(0, 2) == "0.00" by {
      assert HighDigits(0, 2) == 0 && NatToString(0) == "0";
      assert LowDigits(0, 2) == "00";
    }
  }

  /** The worked example as a whole CANCEL line. */
  lemma CancelLineExample()
    ensures CancelToWire(42, 2.5) == "CANCEL|id=42|time=2.500"
  {
    CancelExample();
    JoinThree("CANCEL", "id=42", "time=2.500", '|');
  }

  lemma JoinThree(a: string, b: string, c: string, sep: char)
    ensures Join([a, b, c], sep) == a + [sep] + b + [sep] + c
  {
    assert [a, b, c][1..] == [b, c];
    assert [b, c][1..] == [c];
    assert Join([b, c], sep) == b + [sep] + c;
    assert Join([a, b, c], sep) == a + [sep] + (b + [sep] + c);
  }
}

=== FILE: regime.dfy ===
/** Market regimes: the five-valued regime type, its fixed parameter table,
    the per-tick Markov transition matrix, the regime-state record and the
    gated inverse-CDF transition step. Random draws are parameters: `u` in
    [0, 1] for a uniform draw from a closed range, `roll` in [0, 1) for a
    uniform sample. */
module Regimes {
  import opened Wrappers

  datatype Regime = Calm | Volatile | Crash | Rally | Recovery

  /** The regimes in enumeration order; row and column order of the tables. */
  const ALL: seq<Regime> := [Calm, Volatile, Crash, Rally, Recovery]

  /** Position of `r` in `ALL`; always a valid index into both tables. */
  function Index(r: Regime): (i: nat)
    ensures i < |ALL|
    ensures ALL[i] == r
  {
    match r
    case Calm => 0
    case Volatile => 1
    case Crash => 2
    case Rally => 3
    case Recovery => 4
  }

  /** `Index` and `ALL` are mutually inverse, so `Index` is a bijection onto 0..4. */
  lemma IndexBijection()
    ensures forall i :: 0 <= i < |ALL| ==> Index(ALL[i]) == i
    ensures forall r, r' :: Index(r) == Index(r') ==> r == r'
  {
    assert Index(ALL[0]) == 0 && Index(ALL[1]) == 1 && Index(ALL[2]) == 2;
    assert Index(ALL[3]) == 3 && Index(ALL[4]) == 4;
  }

  /** Upper-case display name used in event messages. */
  function Name(r: Regime): string {
    match r
    case Calm => "CALM"
    case Volatile => "VOLATILE"
    case Crash => "CRASH"
    case Rally => "RALLY"
    case Recovery => "RECOVERY"
  }

  lemma NameInjective(r: Regime, r': Regime)
    ensures Name(r) == Name(r') <==> r == r'
  {
  }

  /** Per-regime statistical parameters. Rates are events per second. */
  datatype Params = Params(
    sigma: real,
    mu: real,
    limitRate: real,
    marketRate: real,
    cancelRate: real,
    buyProb: real,
    halfSpread: real,
    offsetLambda: real,
    sizeMult: real,
    minDuration: real,
    maxDuration: real)

  /** One row per regime, in `ALL` order. */
  const TABLE: seq<Params> := [
    // Calm
    Params(0.15, 0.0, 50.0, 5.0, 20.0, 0.50, 0.03, 5.0, 1.0, 5.0, 30.0),
    // Volatile
    Params(0.80, 0.0, 80.0, 15.0, 40.0, 0.50, 0.08, 2.5, 1.5, 3.0, 15.0),
    // Crash
    Params(2.00, -0.045, 15.0, 45.0, 80.0, 0.12, 0.25, 1.2, 3.0, 2.0, 10.0),
    // Rally
    Params(1.50, 0.035, 25.0, 35.0, 50.0, 0.88, 0.15, 1.8, 2.5, 2.0, 12.0),
    // Recovery
    Params(0.50, 0.005, 60.0, 8.0, 25.0, 0.55, 0.05, 4.0, 1.0, 3.0, 15.0)
  ]

  /** Per-tick transition probabilities; row = from, column = to, `ALL` order. */
  const TRANSITION_PROB: seq<seq<real>> := [
    [0.0, 0.008, 0.003, 0.003, 0.0],
    [0.005, 0.0, 0.008, 0.006, 0.004],
    [0.0, 0.004, 0.0, 0.002, 0.020],
    [0.0, 0.006, 0.002, 0.0, 0.015],
    [0.015, 0.004, 0.001, 0.002, 0.0]
  ]

  /** The parameters that are consistent: a non-empty duration range, a buy
      probability in [0, 1], and positive rates, spread and offset rate. */
  predicate SaneParams(p: Params) {
    && p.minDuration <= p.maxDuration
    && 0.0 <= p.buyProb <= 1.0
    && p.limitRate > 0.0 && p.marketRate > 0.0 && p.cancelRate > 0.0
    && p.halfSpread > 0.0 && p.offsetLambda > 0.0 && p.sizeMult > 0.0
  }

  /** The table row of `r`; every row is sane. */
  function ParamsOf(r: Regime): (p: Params)
    ensures SaneParams(p)
  {
    TABLE[Index(r)]
  }

  /** The transition row out of `r`. */
  function Row(r: Regime): (row: seq<real>)
    ensures |row| == |ALL|
  {
    TRANSITION_PROB[Index(r)]
  }

  /** Sum of the first `j + 1` entries of `row` (the cumulative probability
      after column `j`). */
  function Cum(row: seq<real>, j: nat): real
    requires j < |row|
  {
    if j == 0 then row[0] else Cum(row, j - 1) + row[j]
  }

  /** Cumulative probability before column `k`. */
  function Before(row: seq<real>, k: nat): real
    requires k <= |row|
  {
    if k == 0 then 0.0 else Cum(row, k - 1)
  }

  function RowSum(r: Regime): real {
    Cum(Row(r), |ALL| - 1)
  }

  /** Facts about the constant matrix: entries are non-negative, the diagonal
      is zero (no self-transition is ever drawn), and every row sums to
      less than 1 (the remaining mass means "stay"). */
  lemma TransitionTableFacts(r: Regime)
    ensures forall j :: 0 <= j < |ALL| ==> Row(r)[j] >= 0.0
    ensures Row(r)[Index(r)] == 0.0
    ensures 0.0 < RowSum(r) < 1.0
  {
    var row := Row(r);
    assert Cum(row, 1) == row[0] + row[1];
    assert Cum(row, 2) == row[0] + row[1] + row[2];
    assert Cum(row, 3) == row[0] + row[1] + row[2] + row[3];
    assert RowSum(r) == row[0] + row[1] + row[2] + row[3] + row[4];
  }

  /** Every table row passes the sanity predicate. */
  lemma TableSane()
    ensures forall i :: 0 <= i < |TABLE| ==> SaneParams(TABLE[i])
  {
  }

  datatype RegimeState = RegimeState(
    current: Regime,
    timeInRegime: real,
    regimeDuration: real,
    previous: Regime)

  /** A uniform draw from `r`'s closed duration range, given the draw's
      position `u` in [0, 1] along that range. */
  function RandomDuration(r: Regime, u: real): (d: real)
    requires 0.0 <= u <= 1.0
    ensures ParamsOf(r).minDuration <= d <= ParamsOf(r).maxDuration
  {
    var p := ParamsOf(r);
    p.minDuration + u * (p.maxDuration - p.minDuration)
  }

  /** Fresh state entering `r` with no history: previous is `r` itself. */
  function NewState(r: Regime, u: real): (s: RegimeState)
    requires 0.0 <= u <= 1.0
    ensures s.current == r && s.previous == r && s.timeInRegime == 0.0
    ensures ParamsOf(r).minDuration <= s.regimeDuration <= ParamsOf(r).maxDuration
  {
    RegimeState(r, 0.0, RandomDuration(r, u), r)
  }

  /** Enter `next`: the old current regime becomes `previous`, the dwell
      clock restarts and a fresh dwell duration is drawn from `next`'s range. */
  function TransitionTo(s: RegimeState, next: Regime, u: real): (s': RegimeState)
    requires 0.0 <= u <= 1.0
    ensures s'.previous == s.current
    ensures s'.current == next
    ensures s'.timeInRegime == 0.0
    ensures ParamsOf(next).minDuration <= s'.regimeDuration <= ParamsOf(next).maxDuration
  {
    RegimeState(next, 0.0, RandomDuration(next, u), s.current)
  }

  /** The transition loop: walk the row accumulating probability into `cum`
      and stop at the first column whose running total exceeds `roll`. */
  function Scan(row: seq<real>, roll: real, k: nat, cum: real): (r: Option<nat>)
    requires k <= |row|
    ensures r.Some? ==> k <= r.value < |row|
    decreases |row| - k
  {
    if k == |row| then None
    else
      var c := cum + row[k];
      if roll < c then Some(k) else Scan(row, roll, k + 1, c)
  }

  /** `k` is the least column whose cumulative probability exceeds `roll`. */
  predicate FirstCrossing(row: seq<real>, roll: real, k: nat) {
    && k < |row|
    && roll < Cum(row, k)
    && forall j :: 0 <= j < k ==> roll >= Cum(row, j)
  }

  /** Started with the true running total, `Scan` finds exactly the least
      crossing column, or none when `roll` is at or above every cumulative sum. */
  lemma {:induction false} ScanFindsFirstCrossing(row: seq<real>, roll: real, k: nat, cum: real)
    requires k <= |row|
    requires cum == Before(row, k)
    requires forall j :: 0 <= j < k ==> roll >= Cum(row, j)
    ensures Scan(row, roll, k, cum).Some? ==> FirstCrossing(row, roll, Scan(row, roll, k, cum).value)
    ensures Scan(row, roll, k, cum).None? ==> forall j :: 0 <= j < |row| ==> roll >= Cum(row, j)
    decreases |row| - k
  {
    if k < |row| {
      var c := cum + row[k];
      assert c == Cum(row, k);
      if roll >= c {
        ScanFindsFirstCrossing(row, roll, k + 1, c);
      }
    }
  }

  /** One transition attempt. With transitions disabled, or before the
      current regime's dwell time has elapsed, the regime stays; otherwise
      the least column whose cumulative probability exceeds `roll` is
      chosen, and if none does the regime stays. */
  function TryTransition(s: RegimeState, allowTransitions: bool, roll: real): (r: Regime)
    ensures !allowTransitions ==> r == s.current
    ensures s.timeInRegime < s.regimeDuration ==> r == s.current
    ensures allowTransitions && s.timeInRegime >= s.regimeDuration ==>
      (exists k: nat :: FirstCrossing(Row(s.current), roll, k) && r == ALL[k]) ||
      (r == s.current && forall j :: 0 <= j < |ALL| ==> roll >= Cum(Row(s.current), j))
  {
    if !allowTransitions then s.current
    else if s.timeInRegime < s.regimeDuration then s.current
    else
      var row := Row(s.current);
      ScanFindsFirstCrossing(row, roll, 0, 0.0);
      match Scan(row, roll, 0, 0.0)
      case Some(k) => ALL[k]
      case None => s.current
  }

  /** Cumulative sums of a non-negative row never decrease. */
  lemma {:induction false} CumMonotone(row: seq<real>, i: nat, j: nat)
    requires i <= j < |row|
    requires forall x :: 0 <= x < |row| ==> row[x] >= 0.0
    ensures Cum(row, i) <= Cum(row, j)
    decreases j - i
  {
    if i < j {
      CumMonotone(row, i, j - 1);
    }
  }

  /** Once the gate is open and `roll` is a sample from [0, 1), the regime
      changes exactly when `roll` falls below the row sum: because the
      diagonal is zero, the crossing column is never the current regime. */
  lemma TransitionChangesIff(s: RegimeState, roll: real)
    requires s.timeInRegime >= s.regimeDuration
    requires 0.0 <= roll < 1.0
    ensures TryTransition(s, true, roll) != s.current <==> roll < RowSum(s.current)
  {
    var row := Row(s.current);
    var from := Index(s.current);
    TransitionTableFacts(s.current);
    IndexBijection();
    var r := TryTransition(s, true, roll);
    if k: nat :| FirstCrossing(row, roll, k) && r == ALL[k] {
      CumMonotone(row, k, |ALL| - 1);
      assert k > 0 ==> Cum(row, k) == Cum(row, k - 1) + row[k];
      assert k > 0 ==> roll >= Cum(row, k - 1);
      assert k != from;
      assert Index(r) == k;
    } else {
      assert roll >= Cum(row, |ALL| - 1);
    }
  }

  /** The dwell gate after entering a regime: the engine advances the dwell
      clock by one tick before each attempt, so as long as the elapsed time
      `dt` stays below the regime's minimum dwell time, the attempt keeps
      the new regime whatever the roll. */
  lemma DwellGate(s: RegimeState, next: Regime, u: real, roll: real, dt: real)
    requires 0.0 <= u <= 1.0
    requires dt < ParamsOf(next).minDuration
    ensures var e := TransitionTo(s, next, u);
      TryTransition(e.(timeInRegime := e.timeInRegime + dt), true, roll) == next
  {
  }
}

=== FILE: scenario.dfy ===
/** Scenario presets: each named scenario fixes the starting regime, an
    optional one-shot forced event (time and target regime) and whether
    organic Markov transitions are allowed. A forced-event time that is not
    positive means "no forced event". */
module Scenarios {
  import R = Regimes

  datatype Scenario = Normal | Crash | Volatile | FlashCrash | Rally

  const ALL: seq<Scenario> := [Normal, Crash, Volatile, FlashCrash, Rally]

  /** The kebab-case display name, as accepted on the command line. */
  function Name(s: Scenario): string {
    match s
    case Normal => "normal"
    case Crash => "crash"
    case Volatile => "volatile"
    case FlashCrash => "flash-crash"
    case Rally => "rally"
  }

  /** Display names of distinct scenarios are distinct. */
  lemma NamesDistinct(s: Scenario, s': Scenario)
    ensures Name(s) == Name(s') <==> s == s'
  {
  }

  datatype ScenarioConfig = ScenarioConfig(
    startingRegime: R.Regime,
    forcedEventTime: real,
    forcedRegime: R.Regime,
    allowTransitions: bool)

  /** Whether a configuration schedules a forced event at all. */
  predicate HasForcedEvent(c: ScenarioConfig) {
    c.forcedEventTime > 0.0
  }

  /** The preset table. Only Volatile pins its regime; every other preset
      starts calm; the scripted presets force their event at a positive time
      and the other two schedule none. */
  function FromScenario(s: Scenario): (c: ScenarioConfig)
    ensures c.allowTransitions <==> s != Volatile
    ensures c.startingRegime == (if s == Volatile then R.Volatile else R.Calm)
    ensures HasForcedEvent(c) <==> s in {Crash, FlashCrash, Rally}
    ensures s == Crash ==> c.forcedRegime == R.Crash && c.forcedEventTime == 10.0
    ensures s == FlashCrash ==> c.forcedRegime == R.Crash && c.forcedEventTime == 8.0
    ensures s == Rally ==> c.forcedRegime == R.Rally && c.forcedEventTime == 10.0
  {
    match s
    case Normal => ScenarioConfig(R.Calm, -1.0, R.Calm, true)
    case Crash => ScenarioConfig(R.Calm, 10.0, R.Crash, true)
    case Volatile => ScenarioConfig(R.Volatile, -1.0, R.Volatile, false)
    case FlashCrash => ScenarioConfig(R.Calm, 8.0, R.Crash, true)
    case Rally => ScenarioConfig(R.Calm, 10.0, R.Rally, true)
  }

  /** Under the Volatile preset no transition attempt can leave the current
      regime, whatever the dwell clock and the roll. */
  lemma VolatileNeverTransitions(st: R.RegimeState, roll: real)
    ensures R.TryTransition(st, FromScenario(Volatile).allowTransitions, roll) == st.current
  {
  }
}

=== FILE: text.dfy ===
/** Decimal rendering of integers and fixed-point values, and splitting a line
    on a separator character. The wire format's `{}` and `{:.N}` renderings
    are built from these, and the model-side decoder reads them back. */
module Text {
  import opened Wrappers

  predicate IsDigit(c: char) {
    '0' <= c <= '9'
  }

  predicate AllDigits(s: string) {
    forall i :: 0 <= i < |s| ==> IsDigit(s[i])
  }

  function DigitChar(d: nat): (c: char)
    requires d < 10
    ensures IsDigit(c)
    ensures DigitValue(c) == d
  {
    ('0' as int + d) as char
  }

  function DigitValue(c: char): (d: nat)
    requires IsDigit(c)
    ensures d < 10
  {
    c as int - '0' as int
  }

  function Pow10(k: nat): (p: nat)
    ensures p >= 1
  {
    if k == 0 then 1 else 10 * Pow10(k - 1)
  }

  /** Shortest decimal rendering of `n`, as Rust's `{}` prints an unsigned
      integer: no leading zero, except for zero itself. */
  function NatToString(n: nat): (s: string)
    ensures 1 <= |s|
    ensures AllDigits(s)
    ensures s[0] == '0' <==> n == 0
    ensures n == 0 ==> s == "0"
    decreases n
  {
    if n < 10 then [DigitChar(n)] else NatToString(n / 10) + [DigitChar(n % 10)]
  }

  /** The value of a string of decimal digits, most significant first. */
  function DigitsValue(s: string): (n: nat)
    requires AllDigits(s)
  {
    if |s| == 0 then 0 else 10 * DigitsValue(s[..|s| - 1]) + DigitValue(s[|s| - 1])
  }

  function ParseNat(s: string): (r: Option<nat>)
    ensures r.Some? <==> 1 <= |s| && AllDigits(s)
  {
    if 1 <= |s| && AllDigits(s) then Some(DigitsValue(s)) else None
  }

  lemma {:induction false} NatToStringValue(n: nat)
    ensures DigitsValue(NatToString(n)) == n
    decreases n
  {
    if n >= 10 {
      var s := NatToString(n);
      assert s[..|s| - 1] == NatToString(n / 10);
      NatToStringValue(n / 10);
    }
  }

  /** Decimal rendering of naturals is inverted by `ParseNat`. */
  lemma ParseNatToString(n: nat)
    ensures ParseNat(NatToString(n)) == Some(n)
  {
    NatToStringValue(n);
  }

  /** The `k` lowest decimal digits of `n`, zero-padded to exactly `k` characters. */
  function LowDigits(n: nat, k: nat): (s: string)
    ensures |s| == k
    ensures AllDigits(s)
  {
    if k == 0 then [] else LowDigits(n / 10, k - 1) + [DigitChar(n % 10)]
  }

  /** `n` with its `k` lowest decimal digits dropped. */
  function HighDigits(n: nat, k: nat): nat {
    if k == 0 then n else HighDigits(n / 10, k - 1)
  }

  /** The high and low digits of `n` put back together give `n`. */
  lemma {:induction false} HighLowValue(n: nat, k: nat)
    ensures n == HighDigits(n, k) * Pow10(k) + DigitsValue(LowDigits(n, k))
  {
    if k > 0 {
      var s := LowDigits(n, k);
      assert s[..|s| - 1] == LowDigits(n / 10, k - 1);
      HighLowValue(n / 10, k - 1);
      var h := HighDigits(n / 10, k - 1);
      var p := Pow10(k - 1);
      var v := DigitsValue(LowDigits(n / 10, k - 1));
      assert DigitsValue(s) == 10 * v + n % 10;
      MulTen(h, p);
      assert HighDigits(n, k) * Pow10(k) + DigitsValue(s) == 10 * (h * p + v) + n % 10;
    }
  }

  lemma MulTen(h: nat, p: nat)
    ensures h * (10 * p) == 10 * (h * p)
  {
  }

  /** A signed fixed-point number: a sign and a magnitude counted in units
      of 10^-k. The sign is kept apart from the magnitude because a negative
      number too small to show a non-zero digit still shows its minus sign. */
  datatype Fixed = Fixed(negative: bool, magnitude: nat)

  /** The signed number of units of 10^-k. */
  function Value(f: Fixed): int {
    if f.negative then -(f.magnitude as int) else f.magnitude as int
  }

  /** `f` rendered as Rust's `{:.k}` renders a float: a minus sign for a
      negative number, the integer part, a point and exactly `k` digits. */
  function FixedToString(f: Fixed, k: nat): (s: string)
    requires k >= 1
  {
    (if f.negative then "-" else "") + UnsignedFixed(f.magnitude, k)
  }

  /** The layout of a fixed-point rendering: a minus sign exactly for a
      negative number, then at least one digit, and a point followed by
      exactly `k` digits at the end. */
  lemma FixedShape(f: Fixed, k: nat)
    requires k >= 1
    ensures var s := FixedToString(f, k);
      && |s| >= k + 2
      && (s[0] == '-' <==> f.negative)
      && s[|s| - k - 1] == '.' && AllDigits(s[|s| - k..])
  {
    var u := UnsignedFixed(f.magnitude, k);
    var sign := if f.negative then "-" else "";
    assert u[|u| - k..] == LowDigits(f.magnitude, k);
    assert (sign + u)[|sign + u| - k..] == u[|u| - k..];
  }

  function UnsignedFixed(mag: nat, k: nat): string
    requires k >= 1
  {
    NatToString(HighDigits(mag, k)) + "." + LowDigits(mag, k)
  }

  function ParseFixed(s: string, k: nat): Option<Fixed>
    requires k >= 1
  {
    var negative := 1 <= |s| && s[0] == '-';
    var body := if negative then s[1..] else s;
    var parts := Split(body, '.');
    if |parts| != 2 || |parts[1]| != k then None
    else
      var whole :- ParseNat(parts[0]);
      var frac :- ParseNat(parts[1]);
      Some(Fixed(negative, whole * Pow10(k) + frac))
  }

  /** Every fixed-point rendering parses back to the number it renders,
      sign included. */
  lemma ParseFixedToString(f: Fixed, k: nat)
    requires k >= 1
    ensures ParseFixed(FixedToString(f, k), k) == Some(f)
  {
    var body := UnsignedFixed(f.magnitude, k);
    var s := FixedToString(f, k);
    if f.negative {
      assert s[1..] == body;
    } else {
      assert s == body;
      assert IsDigit(s[0]);
    }
    UnsignedFixedParts(f.magnitude, k);
  }

  lemma UnsignedFixedParts(mag: nat, k: nat)
    requires k >= 1
    ensures |UnsignedFixed(mag, k)| >= 1 && IsDigit(UnsignedFixed(mag, k)[0])
    ensures var parts := Split(UnsignedFixed(mag, k), '.');
      && |parts| == 2 && |parts[1]| == k
      && ParseNat(parts[0]).Some? && ParseNat(parts[1]).Some?
      && ParseNat(parts[0]).value * Pow10(k) + ParseNat(parts[1]).value == mag
  {
    var w := NatToString(HighDigits(mag, k));
    var f := LowDigits(mag, k);
    assert UnsignedFixed(mag, k) == w + "." + f;
    DigitsHaveNo(w, '.');
    DigitsHaveNo(f, '.');
    SplitAfter(w, '.', f);
    SplitWhole(f, '.');
    ParseNatToString(HighDigits(mag, k));
    HighLowValue(mag, k);
  }

  /** Fixed-point renderings use only digits, the point and the minus sign. */
  lemma FixedAvoids(f: Fixed, k: nat, c: char)
    requires k >= 1
    requires c != '-' && c != '.' && !IsDigit(c)
    ensures c !in FixedToString(f, k)
  {
    UnsignedFixedAvoids(f.magnitude, k, c);
  }

  lemma UnsignedFixedAvoids(mag: nat, k: nat, c: char)
    requires k >= 1
    requires c != '.' && !IsDigit(c)
    ensures c !in UnsignedFixed(mag, k)
  {
    var w := NatToString(HighDigits(mag, k));
    var f := LowDigits(mag, k);
    assert UnsignedFixed(mag, k) == w + "." + f;
    PointedDigitsAvoid(w, f, c);
  }

  lemma PointedDigitsAvoid(w: string, f: string, c: char)
    requires AllDigits(w) && AllDigits(f) && c != '.' && !IsDigit(c)
    ensures c !in w + "." + f
  {
    DigitsHaveNo(w, c);
    DigitsHaveNo(f, c);
  }

  lemma DigitsHaveNo(s: string, c: char)
    requires AllDigits(s)
    requires !IsDigit(c)
    ensures c !in s
  {
  }

  /** The pieces of `s` between occurrences of `sep`, as Rust's `str::split`
      returns them: never empty, and `sep`-free. */
  function Split(s: string, sep: char): (r: seq<string>)
    ensures 1 <= |r|
  {
    if |s| == 0 then [""]
    else
      var rest := Split(s[1..], sep);
      if s[0] == sep then [""] + rest else [[s[0]] + rest[0]] + rest[1..]
  }

  /** No piece of a split contains the separator. */
  lemma {:induction false} SplitSepFree(s: string, sep: char)
    ensures forall i :: 0 <= i < |Split(s, sep)| ==> sep !in Split(s, sep)[i]
    decreases |s|
  {
    if |s| > 0 {
      SplitSepFree(s[1..], sep);
    }
  }

  /** The fields joined with `sep` between consecutive ones. */
  function Join(fields: seq<string>, sep: char): string {
    if |fields| == 0 then ""
    else if |fields| == 1 then fields[0]
    else fields[0] + [sep] + Join(fields[1..], sep)
  }

  lemma {:induction false} SplitWhole(s: string, sep: char)
    requires sep !in s
    ensures Split(s, sep) == [s]
    decreases |s|
  {
    if |s| > 0 {
      SplitWhole(s[1..], sep);
      assert [s[0]] + s[1..] == s;
    }
  }

  lemma {:induction false} SplitAfter(a: string, sep: char, b: string)
    requires sep !in a
    ensures Split(a + [sep] + b, sep) == [a] + Split(b, sep)
    decreases |a|
  {
    var s := a + [sep] + b;
    if |a| == 0 {
      assert s[1..] == b;
    } else {
      assert s[1..] == a[1..] + [sep] + b;
      SplitAfter(a[1..], sep, b);
      assert [a[0]] + a[1..] == a;
    }
  }

  /** Joining `sep`-free fields and splitting the result on `sep` gives the
      fields back, one for one. */
  lemma {:induction false} SplitJoin(fields: seq<string>, sep: char)
    requires 1 <= |fields|
    requires forall i :: 0 <= i < |fields| ==> sep !in fields[i]
    ensures Split(Join(fields, sep), sep) == fields
    decreases |fields|
  {
    if |fields| == 1 {
      SplitWhole(fields[0], sep);
    } else {
      SplitJoin(fields[1..], sep);
      SplitAfter(fields[0], sep, Join(fields[1..], sep));
      assert [fields[0]] + fields[1..] == fields;
    }
  }

  /** `s` with the prefix `key` removed, when it starts with `key`. */
  function After(s: string, key: string): (r: Option<string>)
    ensures r.Some? <==> key <= s
    ensures r.Some? ==> s == key + r.value
  {
    if key <= s then Some(s[|key|..]) else None
  }
}

=== FILE: wrappers.dfy ===
/** Failure-compatible wrappers used across the model: `Option` for lookups and
    decoders that may find nothing, `Result` for the configuration parsers that
    report an error message. */
module Wrappers {

  datatype Option<+T> = None | Some(value: T) {

    predicate IsFailure() {
      None?
    }

    function PropagateFailure<U>(): Option<U>
      requires None?
    {
      None
    }

    function Extract(): T
      requires Some?
    {
      value
    }

    /** The wrapped value, or `default` when there is none (Rust's `unwrap_or`). */
    function GetOr(default: T): T {
      match this
      case Some(v) => v
      case None => default
    }
  }

  datatype Result<+R, +E> = Ok(value: R) | Err(error: E) {

    predicate IsFailure() {
      Err?
    }

    function PropagateFailure<U>(): Result<U, E>
      requires Err?
    {
      Err(error)
    }

    function Extract(): R
      requires Ok?
    {
      value
    }
  }
}
